=== FILE: README.md ===
# Home-security dashboard: session, permission gate and list reconciliation

This project models, in Dafny, the logic core of a browser dashboard for a home
security installation. It covers the session and token lifecycle of the mock API,
including its expiry decision on restore. It covers the permission-gated
activate/deactivate toggle of alarm groups. It covers the confirm-then-apply
reconciliation of the local lists of alarm groups, cameras and reeds,
recordings, users and the two singleton configurations. It also covers the
recording list derivation (completed only, sorted by filename, cameras keyed by
IP) and the mapping between URL paths and tabs.

Every React handler is one pure step function `(state, backend reply, ...) -> state`.
The backend's answer is a parameter `Reply<T> = Ok(value) | Err(message)`.
Where a handler may skip the backend, the step also returns the call it made
(`Option<Call>`). That is how "a refusal makes no backend call" is stated.
The clock (`Date.now()`), random token suffixes and fresh ids are parameters too.

Modules, one per source file plus helpers:

- `Outcomes`: `Option` and `Reply`.
- `Types`: the entities.
- `Storage`: `localStorage` as a map from keys to stored strings.
- `IdLists`: the `find` / `filter` / `map` by id idioms, written once and proved once.
- `FilenameOrder`: the filename order and the sort.
- `Api`, `Alarm`, `Devices`, `Recordings`, `Configuration`, `UserManagement`,
  `TabLayout`, `LoginForm`, `AuthWrapper`: one per source file.

Some behaviours of the code that a reader might not expect, all modelled as written:

- The code has no logout on a 401 answer.
- The mount effect that arms the expiry timer returns no cleanup, and logout cancels no timer.
- Only the alarm toggle consults permissions. The device permissions only hide buttons.
- `updateAlarmGroup` / `updateUser` look the id up in the mock's fixed data, not in the local cache.
- A delete's boolean answer is ignored; only a rejection counts as failure.
- The shell renders the alarm and device screens (app/components/tab-layout.tsx:92 and :95) without their `permissions` prop, so as wired their `permissions.includes` reads `undefined`. The models of those screens take the permission list as a given parameter.

## Model

| member | source | states |
|---|---|---|
| `IdLists.Find` | app/components/alarm.tsx:52 | `find` yields the first element with the id, and yields nothing exactly when no element has it |
| `IdLists.WithoutMembers` | app/components/alarm.tsx:44 | `filter` by id drops exactly the elements with the id and keeps every other one; the list shrinks iff some element had the id |
| `IdLists.WithoutCounts` | app/components/alarm.tsx:44 | every element without the id is kept exactly as often as the input holds it, and no element with the id survives |
| `IdLists.WithoutConcat` | app/components/alarm.tsx:44 | filtering a concatenation filters each part, so the kept elements stay in their input order |
| `IdLists.WithoutSingleton` | app/components/alarm.tsx:44 | a single element is kept exactly when it lacks the id |
| `IdLists.Replace` | app/components/alarm.tsx:69-71 | `map` by id keeps the length, puts the new value at every position with the id and leaves every other position as it was |
| `IdLists.WithoutAppended` | app/components/alarm.tsx:89-91 | deleting the id of an element just appended (and absent before) restores the list: delete undoes create |
| `IdLists.FindAfterReplace` | app/components/alarm.tsx:93-94 | after replacing by id, finding that id yields the replacement |
| `Storage.Get` | app/components/tab-layout.tsx:23-24 | `getItem` answers the stored value exactly when the key is present, `null` otherwise |
| `Storage.Truthy` | app/components/tab-layout.tsx:26-30 | a `getItem` result is truthy exactly when it is present and not the empty string |
| `Storage.ParseTime` | app/components/tab-layout.tsx:31 | `new Date(v).getTime()`: a timestamp this program wrote reads back as its instant; any other text reads as the browser's date parser says |
| `Api.Login` | lib/api.ts:17-30 | the token is `fake_token_` plus the random suffix and is persisted under `token`; remember-me gives no in-memory expiry and persists `'infinite'`, otherwise both hold now + 1,800,000 ms; no other stored key changes; the mock answers the admin user |
| `Api.Logout` | lib/api.ts:32-37 | token and expiry become null, both session keys are gone from storage, every other stored key is kept |
| `Api.LogoutIdempotent` | lib/api.ts:32-37 | logging out twice ends in the same state as logging out once |
| `Api.LoginThenLogout` | lib/api.ts:17-37 | a login followed by a logout leaves the same state as a logout alone |
| `Api.AlarmGroups` | lib/api.ts:50-66 | the mock has exactly groups 1 and 2, both inactive, whose devices all come from the device list |
| `Api.MergeGroupProperties` | lib/api.ts:76 | the object spread: an empty patch keeps the stored group, a full patch yields the patched group, absent fields keep stored values, re-applying a patch changes nothing |
| `Api.CreateAlarmGroup` | lib/api.ts:68-70 | create answers the given group's fields unchanged with the fresh id |
| `Api.UpdateAlarmGroup` | lib/api.ts:72-77 | fails with "Group not found" exactly for ids other than 1 and 2; otherwise answers that stored group with the patch applied over it |
| `Api.DeleteAlarmGroup` | lib/api.ts:79-81 | delete always answers true |
| `Api.ActivateAlarm` | lib/api.ts:83-85 | activation always rejects with "Failed to activate alarm" |
| `Api.DeactivateAlarm` | lib/api.ts:87-92 | fails for ids other than 1 and 2; otherwise answers that stored group with only `isActive` cleared |
| `Api.MergeUserProperties` | lib/api.ts:114 | the user spread: a present patch field wins, an absent one keeps the stored value, an empty patch changes nothing, and a second application changes nothing more |
| `Api.CreateUser` | lib/api.ts:106-108 | create answers the given user's fields unchanged with the fresh id |
| `Api.UpdateUser` | lib/api.ts:110-115 | fails with "User not found" exactly for ids outside 1..3; otherwise answers that stored user with each present patch field overriding it and every absent field kept |
| `Alarm.FetchData` | app/components/alarm.tsx:27-39 | groups are stored as soon as they arrive; a device failure keeps them and sets the error; a group failure stores nothing |
| `Alarm.HandleActivate` | app/components/alarm.tsx:50-75 | unknown id: nothing changes, no call; an active group without STOP_ALARM or an inactive group without START_ALARM is refused with its message, the list is unchanged and no call is made; otherwise the matching endpoint is called; on success exactly the entries with the id become the answer and all others stay; on failure only the error is set |
| `Alarm.DenialIgnoresBackend` | app/components/alarm.tsx:55-63 | when nothing is called, the outcome is the same whatever the backend would have answered, and the list is unchanged |
| `Alarm.IndependentGates` | app/components/alarm.tsx:24-25 | holding only STOP_ALARM lets exactly active groups through, holding only START_ALARM exactly inactive ones |
| `Alarm.MockBackendKeepsAllInactive` | app/components/alarm.tsx:65-71 | against the mock endpoints a list of inactive groups stays all inactive after any toggle, whatever the permissions |
| `Alarm.StartWithoutPermissionScenario` | app/components/alarm.tsx:60-63 | a user without START_ALARM toggling mock group 2 is refused, no call is made, and the group stays inactive |
| `Alarm.HandleAddGroup` | app/components/alarm.tsx:77-80 | the add draft has id 0, an empty name, no devices and is inactive; the dialog opens and nothing else in the state changes |
| `Alarm.HandleSaveGroup` | app/components/alarm.tsx:87-100 | id 0 calls create and appends the answer; any other id calls update and replaces in place, by the answered id, keeping the length; only success closes the dialog; a rejection changes only the error |
| `Alarm.HandleDelete` | app/components/alarm.tsx:41-48 | a resolved delete leaves the id-filter of the groups: no group has the id, every other group is kept as often as before and in its order; a rejection changes only the error |
| `Alarm.SaveThenDelete` | app/components/alarm.tsx:89-91 | creating a group with a fresh id and then deleting that id returns the list to what it was |
| `Alarm.SaveExistingWithMockBackend` | app/components/alarm.tsx:93-94 | saving mock group 1 or 2 against the mock update puts the submitted draft itself at that id |
| `Alarm.ToggleDevice` | app/components/alarm.tsx:134-141 | checking appends the device; unchecking is the id-filter, dropping exactly the devices with its id and keeping the others' copies and order; other draft fields are unchanged |
| `Alarm.CheckThenUncheck` | app/components/alarm.tsx:137-139 | checking a device absent from the draft and unchecking it restores the draft |
| `Devices.PermissionFlagsIndependent` | app/components/devices.tsx:25-26 | the flags are membership tests of MODIFY_DEVICES and ACCESS_STREAM_CAMERAS; either may hold without the other |
| `Devices.FetchDevices` | app/components/devices.tsx:28-40 | both lists are set together only when both fetches succeed; otherwise neither changes and the error is set |
| `Devices.HandleAddDevice` | app/components/devices.tsx:42-46 | the draft has id 0 and the requested kind; lists and error are untouched |
| `Devices.HandleEditDevice` | app/components/devices.tsx:48-52 | the device becomes the draft and its kind becomes the screen's kind |
| `Devices.HandleDeleteDevice` | app/components/devices.tsx:54-66 | a resolved delete id-filters the list of that kind only: exactly the items with the id go, the others keep their copies and order; a rejection changes only the error, which names the kind |
| `Devices.HandleSaveDevice` | app/components/devices.tsx:68-93 | id 0 appends the created device to its kind's list; any other id replaces, by the answered id, in place in that list only; the other list never changes; only success closes the dialog; a rejection changes only the error |
| `Devices.AddThenSave` | app/components/devices.tsx:42-93 | opening an add draft and saving it appends the created device to that kind's list and leaves the other list unchanged |
| `Recordings.Completed` | app/components/recordings.tsx:25-26 | the filtered list holds exactly the completed recordings |
| `Recordings.CompletedCounts` | app/components/recordings.tsx:25-26 | each completed recording is kept as often as the input holds it, each incomplete one never |
| `FilenameOrder.LessEqTotal` | app/components/recordings.tsx:27 | any two filenames are comparable |
| `FilenameOrder.LessEqTransitive` | app/components/recordings.tsx:27 | the filename order is transitive |
| `FilenameOrder.SortByFilename` | app/components/recordings.tsx:27 | the sort output is ascending by filename and is a permutation of its input |
| `Recordings.LoadedRecordings` | app/components/recordings.tsx:24-28 | the stored list is sorted by filename, a permutation of the completed subset, and contains exactly the completed recordings |
| `Recordings.LoadScenario` | app/components/recordings.tsx:24-28 | four fetched recordings with one incomplete give the three completed ones in filename order |
| `Recordings.GatherCameras` | app/components/recordings.tsx:30-31 | `Promise.all` succeeds iff every call does, and then yields one camera per requested IP, in order; each call has its own answer, so two calls for the same IP may differ |
| `Recordings.CameraMapKeys` | app/components/recordings.tsx:32-35 | the camera map's keys are exactly the fetched cameras' IPs |
| `Recordings.CameraMapLaterWins` | app/components/recordings.tsx:32-35 | every camera is found under its own IP unless a later camera shares that IP: the later result wins |
| `Recordings.FetchData` | app/components/recordings.tsx:22-43 | a failed list fetch only sets the error; otherwise the completed, sorted list is stored first; a camera failure then leaves cameras and storage as they were and sets the error; a storage failure keeps the camera map and sets the error |
| `Recordings.HandleDelete` | app/components/recordings.tsx:47-54 | a resolved delete id-filters the recordings: exactly those without the id remain, with their copies and order; a rejection changes only the error |
| `Recordings.CameraName` | app/components/recordings.tsx:83 | a named camera under the IP gives its name; an absent IP or an empty name gives "Unknown Camera" |
| `Recordings.LoadedCameraName` | app/components/recordings.tsx:30-36 | after a load, a recording whose lookup answered a named camera with the recording's IP shows that camera's name, unless a later recording's lookup answered a different camera under the same IP |
| `Configuration.FetchConfigs` | app/components/configuration.tsx:25-41 | the e-mail record is stored before the audio record is fetched; an e-mail failure only sets the error; an audio failure keeps the e-mail record, sets the error and leaves the audio cache as it was |
| `Configuration.HandleAddEmailConfig` | app/components/configuration.tsx:43-46 | the e-mail draft is all empty with port 0 and its dialog opens; nothing else in the state changes |
| `Configuration.HandleAddAudioConfig` | app/components/configuration.tsx:48-51 | the audio draft has no audio file and its dialog opens; nothing else in the state changes |
| `Configuration.HandleSaveEmailConfig` | app/components/configuration.tsx:81-94 | calls update when a record is cached and create when none is; success caches the answer and closes the dialog; failure changes only the error |
| `Configuration.HandleSaveAudioConfig` | app/components/configuration.tsx:96-109 | the same create-or-update rule for the audio record |
| `Configuration.HandleDeleteEmailConfig` | app/components/configuration.tsx:63-70 | a resolved delete empties the e-mail cache; a rejection changes only the error |
| `Configuration.HandleDeleteAudioConfig` | app/components/configuration.tsx:72-79 | a resolved delete empties the audio cache; a rejection changes only the error |
| `Configuration.SingletonLifecycle` | app/components/configuration.tsx:63-94 | after a successful save the next save is an update; after a successful delete it is a create again |
| `Configuration.AudioLifecycleIndependent` | app/components/configuration.tsx:72-109 | the audio record follows the same lifecycle and leaves the e-mail record alone |
| `UserManagement.InitialIdsDistinct` | app/components/user-management.tsx:25-29 | the seeded users have the distinct ids 1, 2 and 3 |
| `UserManagement.HandleAddUser` | app/components/user-management.tsx:36-39 | the add draft is blank with the current time as id; the list is untouched |
| `UserManagement.HandleUpdateUser` | app/components/user-management.tsx:41-44 | the chosen user becomes the draft |
| `UserManagement.HandleDeleteUser` | app/components/user-management.tsx:46-48 | the id-filter: exactly the users without the id remain, with their copies and order; the list shrinks iff some user had the id |
| `UserManagement.HandleSaveUser` | app/components/user-management.tsx:50-57 | a saved user whose id equals the draft's replaces by id, keeping the length; any other is appended; the dialog closes either way |
| `UserManagement.SubmitForm` | app/components/user-management.tsx:86-91 | the form submits the draft itself, so the save always replaces by the draft's id: every user with that id becomes the draft, every other user is untouched, and the length never changes |
| `UserManagement.AddedUserIsDropped` | app/components/user-management.tsx:36-57 | adding a user with a fresh time-based id and submitting leaves the list exactly as it was |
| `UserManagement.AddedUserIsDroppedExample` | app/components/user-management.tsx:36-39 | the concrete case: the seeded list and a new user at time 1700000000000 |
| `UserManagement.HandleSaveUserIntended` | app/components/user-management.tsx:50-57 | corrected save: replaces by id when the list holds the id, appends otherwise |
| `UserManagement.SubmitFormIntended` | app/components/user-management.tsx:86-91 | with the corrected save, the submitted user is in the list afterwards |
| `UserManagement.IntendedAddAndEdit` | app/components/user-management.tsx:50-57 | with the corrected save, adding grows the list by exactly the new user, and editing keeps the length and puts the edit at its id |
| `UserManagement.TogglePermission` | app/components/user-management.tsx:120-128 | checking appends the permission; unchecking is the shared filter with the permission as its own key: it removes every occurrence and keeps every other permission as often as before and in its order; other fields are unchanged |
| `UserManagement.CheckThenUncheckPermission` | app/components/user-management.tsx:123-125 | checking a permission the user lacks and unchecking it restores the user |
| `TabLayout.Initial` | app/components/tab-layout.tsx:17-18 | before the restore runs the shell is logged out with no user |
| `TabLayout.RestoreDecision` | app/components/tab-layout.tsx:22-41 | no (or an empty) token: no session; no expiry or `'infinite'`: keep the session; an expiry read as a future instant: a logout after exactly `expiry - now`; an expiry that reads as `NaN` or with `expiry - now <= 0`: log out at once |
| `TabLayout.DateTextSchedules` | app/components/tab-layout.tsx:30-35 | any expiry text the browser reads as a future instant, not only one this program wrote, passes the time left to the timer, provided it fits the timer's 32-bit delay |
| `TabLayout.RestoreEffect` | app/components/tab-layout.tsx:22-41 | without a token nothing changes; a kept or scheduled session is logged in; an expired one is exactly `handleLogout`: logged out, no user, at `/`, both session keys gone and every other key kept |
| `TabLayout.HandleLogout` | app/components/tab-layout.tsx:48-53 | logged out, user cleared, storage cleared through the API logout, navigated to `/` |
| `TabLayout.LogoutTimerFires` | app/components/tab-layout.tsx:35 | the scheduled logout runs `handleLogout`: logged out, no user, at `/`, both session keys gone through the API logout; the one-shot timer is no longer armed |
| `TabLayout.UserLoaded` | app/components/tab-layout.tsx:28 | a resolved user is stored; a rejection changes nothing |
| `TabLayout.HandleLogin` | app/components/tab-layout.tsx:43-46 | logged in with the given user; session, path and scheduled logout are unchanged |
| `TabLayout.LoginThenRestore` | app/components/tab-layout.tsx:30-38 | after an API login, a restore keeps a remember-me session for good; otherwise it schedules a logout for exactly the rest of the thirty minutes, or logs out at once when they have passed |
| `TabLayout.ExpiredEitherWayLoggedOut` | app/components/tab-layout.tsx:34-38 | an expiring session ends logged out with the session keys gone, whether the logout is immediate or scheduled |
| `TabLayout.CurrentTab` | app/components/tab-layout.tsx:67 | `/` is the alarm tab; any other path is the tab named by the path without its first character |
| `TabLayout.TabPath` | app/components/tab-layout.tsx:55-57 | the alarm tab goes to `/`; any other tab goes to `/` followed by the tab |
| `TabLayout.HandleTabChange` | app/components/tab-layout.tsx:55-57 | after a tab change to a non-empty tab, the current tab is that tab |
| `TabLayout.TabPathRoundTrip` | app/components/tab-layout.tsx:55-67 | tab to path to tab returns every non-empty tab; the empty tab comes back as the alarm tab |
| `TabLayout.PathTabRoundTrip` | app/components/tab-layout.tsx:55-67 | path to tab to path returns every slash-led path except `/alarm`, which leads to `/` |
| `LoginForm.HandleSubmit` | app/components/login.tsx:12-20 | an empty username or password changes nothing; otherwise `isLoggedIn` is stored as `"true"` and the username under `username`, no other key changes, and `onLogin` gets exactly the username |
| `AuthWrapper.Restore` | app/components/auth-wrapper.tsx:9-12 | logged in exactly when the stored flag is the text `"true"` |
| `AuthWrapper.HandleLogin` | app/components/auth-wrapper.tsx:14-16 | login sets logged in unconditionally |
| `AuthWrapper.Render` | app/components/auth-wrapper.tsx:18-22 | children are shown exactly when logged in, the login form otherwise |
| `AuthWrapper.OtherFlagsLogOut` | app/components/auth-wrapper.tsx:10-11 | a missing flag, `"false"` or `"TRUE"` restores as logged out |
| `AuthWrapper.SubmitThenRestore` | app/components/auth-wrapper.tsx:18-22 | a successful login submit followed by a restore shows the children, and so does its `onLogin` |
| `AuthWrapper.IncompleteSubmitKeepsState` | app/components/login.tsx:15 | a submit with an empty field leaves what the restore reads unchanged |

## Findings

| source | as written | input that shows it | evidently intended | confidence | as-written member | corrected member |
|---|---|---|---|---|---|---|
| app/components/user-management.tsx:50-54 | save replaces by id whenever the saved id equals the draft's id; the form always submits the draft, so the replace branch is always taken | the seeded users, "Add User" at time 1700000000000, submit: no user has that id, the replace changes nothing, and the new user never appears | a user whose id the list does not hold is appended (replace only when the list already holds the id) | high; not executed | `UserManagement.AddedUserIsDropped` | `UserManagement.HandleSaveUserIntended` |

The corrected save is what `UserManagement.SubmitFormIntended` and
`UserManagement.IntendedAddAndEdit` use. The as-written `UserManagement.HandleSaveUser`
and `UserManagement.SubmitForm` are kept so the discrepancy stays visible.

## Left out

- Rendering: JSX, dialogs' markup, styling and app/layout.tsx are presentation only. So is the edit dialogs' field-by-field `onChange` plumbing. Trivial setters are left out too: `handleEditGroup`, `handleEditEmailConfig`, `handleEditAudioConfig` and `handleUserUpdate`.
- app.js: DOM and `fetch` plumbing with form encoding through `encodeURIComponent`, which is a foreign call.
- Timers and async ordering: `setTimeout` is not modelled. The restore records only the delay it passes to `setTimeout`. Each handler is one atomic step. The user fetch the restore starts is a separate step (`TabLayout.UserLoaded`). So a late resolution after an immediate logout, which would put the user back, appears only as that step applied afterwards.
- `Promise.all`: its concurrency is not modelled. The lookups are treated as one sequence that fails if any lookup fails.
- TabLayout.RestoreEffect: the state holds at most one armed timer. The effect runs once per mount (its dependency list is empty), and a second run would replace the recorded delay, whereas the browser would hold two timers that both call `handleLogout`.
- TabLayout.RestoreDecision: the delay is the value handed to `setTimeout`, which browsers hold as a 32-bit signed integer. A delay above 2147483647 ms (an expiry more than about 24.8 days ahead, which only a hand-written stored text can produce) fires at once or after the wrapped delay. The model does not reproduce that.
- Recordings.CameraName: the camera map is a plain map. The source's `{}` object also answers prototype members, so an IP such as `constructor` would find a value there that the model's map does not have.
- `formatBytes`: it uses floating-point `log`, `pow` and `toFixed`.
- Clock and randomness: `Date.now`, `Math.random().toString(36)`, `toISOString` and `new Date(...)` parsing are not modelled. They become parameters. A timestamp this program stores is `Stored.Instant(ms)`, which reads back as `ms`. Any other stored text goes through the date parser passed in (`parseDate`), which answers an instant or `NaN`; the restore treats `NaN` as expired.
- Backend functions not part of this model (`getAllRtspCameras`, `createRTSPCamera`, `getCamera`, `getEmailConfig`, and the rest) are replies supplied to the step functions. The types `RTSPCamera`, `MagneticReed`, `Permission`, `Recording`, `Camera`, `StorageInfo`, `EmailConfig` and `AlarmAudioConfig` are not part of this model either. Their shapes come from the fields the components use. The reed draft's `gpio` field is kept, although the card reads `gpio_pin_number`.
- `isFirstUser`, `registerUser`, `getUserMyself` and `deleteUser` of the mock API have constant answers and no other logic. `getAllDevices` and `getAllUsers` appear only as the constants `Api.AllDevices` and `Api.AllUsers`.
- `Partial<T>` patches: a field that is present but `undefined` also overrides in JavaScript's spread. Here a field is either present with a value or absent.
- FilenameOrder.SortByFilename: `localeCompare` is locale-sensitive collation; here it is plain lexicographic order on characters. Stability (equal filenames keep their input order) holds by construction but is not stated.
- Devices.HandleSaveDevice: it requires the draft's kind to equal the screen's `deviceType` (the two are always set together). It also requires the endpoint's answer to be of that kind (the TypeScript types promise it). The source branches on `deviceType` and casts the draft.
- TabLayout.HandleLogin: it takes a `User`, as the handler declares. The login form calls `onLogin` with the username string, a type mismatch the model does not reproduce.
- Configuration: `canChangeMailConfig` and `canChangeAlarmSound` are the constant `true`. The fetch therefore always asks for both records, and the early `return null` never happens.

=== FILE: alarm.dfy ===
/** The alarm screen (app/components/alarm.tsx): the permission-gated
    activate/deactivate toggle and confirm-then-apply save and delete of
    alarm groups. */
module Alarm {
  import opened Outcomes
  import opened Types
  import IdLists
  import Api

  const FetchFailedMessage := "Failed to fetch alarm groups and devices"
  const DeleteFailedMessage := "Failed to delete alarm group"
  const DeactivateDeniedMessage := "You do not have the required permission to deactivate an alarm"
  const ActivateDeniedMessage := "You do not have the required permission to activate an alarm"
  const ToggleFailedMessage := "Failed to activate/deactivate alarm"
  const SaveFailedMessage := "Failed to save alarm group"

  datatype State = State(
    groups: seq<AlarmGroup>,
    allDevices: seq<Device>,
    dialogOpen: bool,
    editing: Option<AlarmGroup>,
    error: Option<string>)

  const Initial := State([], [], false, None, None)

  /** The backend endpoint a handler called, if it called one. */
  datatype Call =
    | ActivateCall(id: int)
    | DeactivateCall(id: int)
    | CreateCall(group: AlarmGroup)
    | UpdateCall(id: int, group: AlarmGroup)

  /** A handler's end state together with the call it issued. */
  datatype Step = Step(state: State, call: Option<Call>)

  /** `canActivateAlarm`: holding START_ALARM. */
  predicate CanActivate(permissions: seq<Permission>) { StartAlarm in permissions }

  /** `canDeactivateAlarm`: holding STOP_ALARM. */
  predicate CanDeactivate(permissions: seq<Permission>) { StopAlarm in permissions }

  /** The mount effect: groups are stored as soon as they arrive, devices
      after; either failure sets the one error message. */
  function FetchData(st: State, groups: Reply<seq<AlarmGroup>>, devices: Reply<seq<Device>>): (r: State)
    ensures groups.Err? ==> r == st.(error := Some(FetchFailedMessage))
    ensures groups.Ok? ==> r.groups == groups.value
    ensures groups.Ok? && devices.Ok? ==> r == st.(groups := groups.value, allDevices := devices.value)
    ensures groups.Ok? && devices.Err? ==> r == st.(groups := groups.value, error := Some(FetchFailedMessage))
  {
    match groups
    case Err(_) => st.(error := Some(FetchFailedMessage))
    case Ok(gs) =>
      match devices
      case Err(_) => st.(groups := gs, error := Some(FetchFailedMessage))
      case Ok(ds) => st.(groups := gs, allDevices := ds)
  }

  /** `handleActivate`.  The first group with the id decides the direction;
      the permission for that direction is checked before any call, a
      refusal sets its message and calls nothing.  `reply` is what the
      called endpoint answers; it is ignored when nothing is called.  On
      success every group with the id becomes the answered group. */
  function HandleActivate(st: State, permissions: seq<Permission>, id: int, reply: Reply<AlarmGroup>): (r: Step)
    ensures !IdLists.HasId(st.groups, GroupId, id) ==> r == Step(st, None)
    ensures r.call.None? ==> r.state.groups == st.groups
    ensures r.call.Some? ==> r.call.value == ActivateCall(id) || r.call.value == DeactivateCall(id)
    ensures IdLists.HasId(st.groups, GroupId, id) ==>
              var g := IdLists.Find(st.groups, GroupId, id).value;
              && (g.isActive && !CanDeactivate(permissions) ==> r == Step(st.(error := Some(DeactivateDeniedMessage)), None))
              && (!g.isActive && !CanActivate(permissions) ==> r == Step(st.(error := Some(ActivateDeniedMessage)), None))
              && (g.isActive && CanDeactivate(permissions) ==> r.call == Some(DeactivateCall(id)))
              && (!g.isActive && CanActivate(permissions) ==> r.call == Some(ActivateCall(id)))
    ensures r.call.Some? && reply.Err? ==> r.state == st.(error := Some(ToggleFailedMessage))
    ensures r.call.Some? && reply.Ok? ==>
              && r.state == st.(groups := r.state.groups)
              && |r.state.groups| == |st.groups|
              && (forall i :: 0 <= i < |st.groups| && st.groups[i].id == id ==> r.state.groups[i] == reply.value)
              && (forall i :: 0 <= i < |st.groups| && st.groups[i].id != id ==> r.state.groups[i] == st.groups[i])
  {
    match IdLists.Find(st.groups, GroupId, id)
    case None => Step(st, None)
    case Some(group) =>
      if group.isActive && !CanDeactivate(permissions) then
        Step(st.(error := Some(DeactivateDeniedMessage)), None)
      else if !group.isActive && !CanActivate(permissions) then
        Step(st.(error := Some(ActivateDeniedMessage)), None)
      else
        var call := if group.isActive then DeactivateCall(id) else ActivateCall(id);
        match reply
        case Err(_) => Step(st.(error := Some(ToggleFailedMessage)), Some(call))
        case Ok(updated) => Step(st.(groups := IdLists.Replace(st.groups, GroupId, id, updated)), Some(call))
  }

  /** A refused toggle does not depend on the backend: whatever the endpoint
      would have answered, the outcome is the same and no call is made. */
  lemma DenialIgnoresBackend(st: State, permissions: seq<Permission>, id: int, a: Reply<AlarmGroup>, b: Reply<AlarmGroup>)
    requires HandleActivate(st, permissions, id, a).call.None?
    ensures HandleActivate(st, permissions, id, b) == HandleActivate(st, permissions, id, a)
    ensures HandleActivate(st, permissions, id, a).state.groups == st.groups
  {
  }

  /** The two directions are gated independently: holding only STOP_ALARM
      lets an active group through and refuses an inactive one, and holding
      only START_ALARM does the opposite. */
  lemma IndependentGates(st: State, id: int, reply: Reply<AlarmGroup>)
    requires IdLists.HasId(st.groups, GroupId, id)
    ensures var g := IdLists.Find(st.groups, GroupId, id).value;
            && HandleActivate(st, [StopAlarm], id, reply).call.Some? == g.isActive
            && HandleActivate(st, [StartAlarm], id, reply).call.Some? == !g.isActive
  {
  }

  /** The mock backend's answer to whichever endpoint the toggle calls. */
  function MockToggleReply(st: State, id: int): Reply<AlarmGroup> {
    match IdLists.Find(st.groups, GroupId, id)
    case Some(g) => if g.isActive then Api.DeactivateAlarm(id) else Api.ActivateAlarm(id)
    case None => Api.ActivateAlarm(id)
  }

  predicate AllInactive(groups: seq<AlarmGroup>) {
    forall i :: 0 <= i < |groups| ==> !groups[i].isActive
  }

  /** Against the mock backend no alarm is ever switched on: activation
      always rejects and deactivation answers an inactive group, so a list
      of inactive groups stays inactive whatever the permissions. */
  lemma MockBackendKeepsAllInactive(st: State, permissions: seq<Permission>, id: int)
    requires AllInactive(st.groups)
    ensures AllInactive(HandleActivate(st, permissions, id, MockToggleReply(st, id)).state.groups)
  {
    var r := HandleActivate(st, permissions, id, MockToggleReply(st, id));
    if r.call.Some? {
      assert IdLists.HasId(st.groups, GroupId, id);
      var g := IdLists.Find(st.groups, GroupId, id).value;
      assert !g.isActive;
      assert MockToggleReply(st, id).Err?;
    }
  }

  /** The scenario of a user without START_ALARM switching on the mock
      "Office Alarm" (id 2): refused, nothing called, the group still
      inactive. */
  lemma StartWithoutPermissionScenario(reply: Reply<AlarmGroup>)
    ensures var st := Initial.(groups := Api.AlarmGroups());
            var r := HandleActivate(st, [StopAlarm, ModifyDevices], 2, reply);
            && r.call.None?
            && r.state.error == Some(ActivateDeniedMessage)
            && !r.state.groups[1].isActive
  {
    var st := Initial.(groups := Api.AlarmGroups());
    assert st.groups[1].id == 2;
    assert IdLists.HasId(st.groups, GroupId, 2);
  }

  /** `handleAddGroup`: an empty, inactive draft with the "not yet created"
      id 0. */
  function HandleAddGroup(st: State): (r: State)
    ensures r.dialogOpen && r.editing.Some? && r.editing.value.id == 0
    ensures r.editing.value.devices == [] && !r.editing.value.isActive
    ensures r.editing.value.name == ""
    ensures r == st.(editing := r.editing, dialogOpen := true)
  {
    st.(editing := Some(AlarmGroup(0, "", [], false)), dialogOpen := true)
  }

  /** `handleSaveGroup`: id 0 creates and appends the server's group,
      any other id updates and replaces, by the id the server answered,
      in place.  Only success closes the dialog; a rejection keeps the
      list and the dialog and sets an error. */
  function HandleSaveGroup(st: State, draft: AlarmGroup, reply: Reply<AlarmGroup>): (r: Step)
    ensures r.call == Some(if draft.id == 0 then CreateCall(draft) else UpdateCall(draft.id, draft))
    ensures reply.Err? ==> r.state == st.(error := Some(SaveFailedMessage))
    ensures reply.Ok? ==> !r.state.dialogOpen && r.state.error == st.error
                          && r.state.allDevices == st.allDevices && r.state.editing == st.editing
    ensures reply.Ok? && draft.id == 0 ==> r.state.groups == st.groups + [reply.value]
    ensures reply.Ok? && draft.id != 0 ==>
              && |r.state.groups| == |st.groups|
              && (forall i :: 0 <= i < |st.groups| && st.groups[i].id == reply.value.id ==> r.state.groups[i] == reply.value)
              && (forall i :: 0 <= i < |st.groups| && st.groups[i].id != reply.value.id ==> r.state.groups[i] == st.groups[i])
  {
    var call := if draft.id == 0 then CreateCall(draft) else UpdateCall(draft.id, draft);
    match reply
    case Err(_) => Step(st.(error := Some(SaveFailedMessage)), Some(call))
    case Ok(saved) =>
      var groups := if draft.id == 0 then st.groups + [saved]
                    else IdLists.Replace(st.groups, GroupId, saved.id, saved);
      Step(st.(groups := groups, dialogOpen := false), Some(call))
  }

  /** `handleDelete`: groups with the id go only once the backend call has
      resolved (its boolean is not inspected); a rejection keeps them. */
  function HandleDelete(st: State, id: int, reply: Reply<bool>): (r: State)
    ensures reply.Err? ==> r == st.(error := Some(DeleteFailedMessage))
    ensures reply.Ok? ==> r == st.(groups := r.groups)
    ensures reply.Ok? ==> forall i :: 0 <= i < |r.groups| ==> r.groups[i].id != id
    ensures reply.Ok? ==> forall g :: g in st.groups && g.id != id ==> g in r.groups
    ensures reply.Ok? ==> forall g :: g in r.groups ==> g in st.groups
    ensures reply.Ok? ==> forall g :: multiset(r.groups)[g] == if g.id == id then 0 else multiset(st.groups)[g]
    ensures reply.Ok? ==> r.groups == IdLists.Without(st.groups, GroupId, id)
  {
    match reply
    case Err(_) => st.(error := Some(DeleteFailedMessage))
    case Ok(_) =>
      var kept := IdLists.Without(st.groups, GroupId, id);
      IdLists.WithoutCountsAll(st.groups, GroupId, id);
      assert forall g :: g in st.groups && g.id != id ==> g in kept by {
        forall g | g in st.groups && g.id != id ensures g in kept {
          var i :| 0 <= i < |st.groups| && st.groups[i] == g;
        }
      }
      st.(groups := kept)
  }

  /** Creating a group the list does not hold yet, then deleting it, gives
      the list back unchanged. */
  lemma SaveThenDelete(st: State, draft: AlarmGroup, created: AlarmGroup, ok: bool)
    requires draft.id == 0
    requires !IdLists.HasId(st.groups, GroupId, created.id)
    ensures HandleDelete(HandleSaveGroup(st, draft, Ok(created)).state, created.id, Ok(ok)).groups == st.groups
  {
    IdLists.WithoutAppended(st.groups, GroupId, created);
  }

  /** Saving an existing group with the mock backend: the update answers the
      draft itself (every field of the form overrides the stored group), so
      the list then holds the draft at that id. */
  lemma SaveExistingWithMockBackend(st: State, draft: AlarmGroup)
    requires draft.id == 1 || draft.id == 2
    requires IdLists.HasId(st.groups, GroupId, draft.id)
    ensures var r := HandleSaveGroup(st, draft, Api.UpdateAlarmGroup(draft.id, Api.FullGroupPatch(draft)));
            IdLists.Find(r.state.groups, GroupId, draft.id) == Some(draft)
  {
    Api.MergeGroupProperties(Api.AlarmGroups()[draft.id - 1], Api.FullGroupPatch(draft));
    assert Api.UpdateAlarmGroup(draft.id, Api.FullGroupPatch(draft)) == Ok(draft);
    IdLists.FindAfterReplace(st.groups, GroupId, draft);
  }

  /** The device checkbox of the edit form: checking appends the device,
      unchecking drops every device with its id; nothing else in the draft
      changes. */
  function ToggleDevice(draft: AlarmGroup, device: Device, checked: bool): (r: AlarmGroup)
    ensures r.id == draft.id && r.name == draft.name && r.isActive == draft.isActive
    ensures checked ==> r.devices == draft.devices + [device]
    ensures !checked ==> forall d :: d in r.devices <==> d in draft.devices && d.id != device.id
    ensures !checked ==> forall d :: multiset(r.devices)[d] == if d.id == device.id then 0 else multiset(draft.devices)[d]
    ensures !checked ==> r.devices == IdLists.Without(draft.devices, DeviceId, device.id)
  {
    if checked then draft.(devices := draft.devices + [device])
    else
      var kept := IdLists.Without(draft.devices, DeviceId, device.id);
      IdLists.WithoutCountsAll(draft.devices, DeviceId, device.id);
      assert forall d :: d in draft.devices && d.id != device.id ==> d in kept by {
        forall d | d in draft.devices && d.id != device.id ensures d in kept {
          var i :| 0 <= i < |draft.devices| && draft.devices[i] == d;
        }
      }
      draft.(devices := kept)
  }

  /** Checking a device that was not in the draft and unchecking it again
      restores the draft. */
  lemma CheckThenUncheck(draft: AlarmGroup, device: Device)
    requires !IdLists.HasId(draft.devices, DeviceId, device.id)
    ensures ToggleDevice(ToggleDevice(draft, device, true), device, false) == draft
  {
    IdLists.WithoutAppended(draft.devices, DeviceId, device);
  }
}

=== FILE: api.dfy ===
/** The mock backend and the session globals of lib/api.ts.  The module-level
    `token` / `tokenExpiry` variables and `localStorage` are threaded through
    as one `Session` value; `Date.now()`, `Math.random()` and the clock behind
    fresh ids are parameters. */
module Api {
  import opened Outcomes
  import opened Types
  import Storage
  import IdLists

  const TokenPrefix := "fake_token_"
  /** Thirty minutes, in milliseconds. */
  const SessionLifetimeMs := 30 * 60 * 1000
  const TokenKey := "token"
  const ExpiryKey := "tokenExpiry"
  /** The persisted expiry text meaning "never expires". */
  const InfiniteExpiry := "infinite"

  const GroupNotFound := "Group not found"
  const UserNotFound := "User not found"
  const ActivateFailed := "Failed to activate alarm"

  /** The in-memory token and expiry instant, and the browser storage. */
  datatype Session = Session(token: Option<string>, expiry: Option<int>, storage: Storage.Store)

  datatype LoginResult = LoginResult(session: Session, user: User)

  const Admin := User(1, "admin", "admin@example.com", ["read", "write", "delete"])

  /** `login`: issues a fake token from the random suffix; "remember me"
      means no expiry (persisted as `'infinite'`), otherwise the expiry is
      thirty minutes after `now`.  Only the two session keys of the storage
      change, and the mock always answers with the admin user. */
  function Login(s: Session, username: string, password: string, rememberMe: bool,
                 now: int, randomSuffix: string): (r: LoginResult)
    ensures r.session.token == Some(TokenPrefix + randomSuffix)
    ensures TokenKey in r.session.storage && r.session.storage[TokenKey] == Storage.Text(r.session.token.value)
    ensures rememberMe ==> r.session.expiry.None?
                           && ExpiryKey in r.session.storage
                           && r.session.storage[ExpiryKey] == Storage.Text(InfiniteExpiry)
    ensures !rememberMe ==> r.session.expiry == Some(now + 1800000)
                            && ExpiryKey in r.session.storage
                            && r.session.storage[ExpiryKey] == Storage.Instant(now + 1800000)
    ensures forall k :: k != TokenKey && k != ExpiryKey ==>
              (k in r.session.storage <==> k in s.storage)
              && (k in s.storage ==> r.session.storage[k] == s.storage[k])
    ensures r.user == Admin
  {
    var fakeToken := TokenPrefix + randomSuffix;
    var expiry: Option<int> := if rememberMe then None else Some(now + SessionLifetimeMs);
    var persisted := if expiry.Some? then Storage.Instant(expiry.value) else Storage.Text(InfiniteExpiry);
    var storage := s.storage[TokenKey := Storage.Text(fakeToken)][ExpiryKey := persisted];
    LoginResult(Session(Some(fakeToken), expiry, storage), Admin)
  }

  /** `logout`: forgets the token and expiry and removes the two session keys,
      leaving every other stored key alone. */
  function Logout(s: Session): (r: Session)
    ensures r.token.None? && r.expiry.None?
    ensures TokenKey !in r.storage && ExpiryKey !in r.storage
    ensures forall k :: k != TokenKey && k != ExpiryKey ==>
              (k in r.storage <==> k in s.storage)
              && (k in s.storage ==> r.storage[k] == s.storage[k])
  {
    Session(None, None, s.storage - {TokenKey, ExpiryKey})
  }

  /** Logging out twice ends where logging out once does. */
  lemma LogoutIdempotent(s: Session)
    ensures Logout(Logout(s)) == Logout(s)
  {
    assert Logout(Logout(s)).storage == Logout(s).storage;
  }

  /** A login followed by a logout leaves no trace of the session: the same
      state as logging out straight away. */
  lemma LoginThenLogout(s: Session, username: string, password: string, rememberMe: bool,
                        now: int, randomSuffix: string)
    ensures Logout(Login(s, username, password, rememberMe, now, randomSuffix).session) == Logout(s)
  {
    var after := Login(s, username, password, rememberMe, now, randomSuffix).session;
    assert Logout(after).storage == Logout(s).storage;
  }

  const AllDevices := [
    Device(1, "Front Door Sensor"),
    Device(2, "Living Room Motion Detector"),
    Device(3, "Main Entrance Sensor"),
    Device(4, "Server Room Sensor"),
    Device(5, "Window Sensor"),
    Device(6, "Garage Door Sensor")]

  /** `getAlarmGroups`: the two fixed groups, both inactive. */
  function AlarmGroups(): (gs: seq<AlarmGroup>)
    ensures |gs| == 2 && gs[0].id == 1 && gs[1].id == 2
    ensures forall i :: 0 <= i < |gs| ==> !gs[i].isActive
    ensures forall i :: 0 <= i < |gs| ==> forall d :: d in gs[i].devices ==> d in AllDevices
  {
    [AlarmGroup(1, "Home Alarm", [AllDevices[0], AllDevices[1], AllDevices[4]], false),
     AlarmGroup(2, "Office Alarm", [AllDevices[2], AllDevices[3]], false)]
  }

  /** `Partial<AlarmGroup>`: each field is present (`Some`) or absent. */
  datatype GroupPatch = GroupPatch(id: Option<int>, name: Option<string>,
                                   devices: Option<seq<Device>>, isActive: Option<bool>)

  /** The patch that carries every field of `g`, as a full object does. */
  function FullGroupPatch(g: AlarmGroup): GroupPatch {
    GroupPatch(Some(g.id), Some(g.name), Some(g.devices), Some(g.isActive))
  }

  /** `{ ...stored, ...updates }`. */
  function MergeGroup(stored: AlarmGroup, updates: GroupPatch): AlarmGroup {
    AlarmGroup(
      if updates.id.Some? then updates.id.value else stored.id,
      if updates.name.Some? then updates.name.value else stored.name,
      if updates.devices.Some? then updates.devices.value else stored.devices,
      if updates.isActive.Some? then updates.isActive.value else stored.isActive)
  }

  /** A field present in the patch wins; an absent one keeps the stored
      value; applying the same patch again changes nothing more; a full
      patch yields exactly the patched group. */
  lemma MergeGroupProperties(stored: AlarmGroup, updates: GroupPatch)
    ensures updates == GroupPatch(None, None, None, None) ==> MergeGroup(stored, updates) == stored
    ensures MergeGroup(MergeGroup(stored, updates), updates) == MergeGroup(stored, updates)
    ensures forall g :: MergeGroup(stored, FullGroupPatch(g)) == g
    ensures updates.id.None? ==> MergeGroup(stored, updates).id == stored.id
    ensures updates.name.None? ==> MergeGroup(stored, updates).name == stored.name
    ensures updates.devices.None? ==> MergeGroup(stored, updates).devices == stored.devices
    ensures updates.isActive.None? ==> MergeGroup(stored, updates).isActive == stored.isActive
  {
  }

  /** `createAlarmGroup`: the given group's fields with a fresh id (the
      current time). */
  function CreateAlarmGroup(group: AlarmGroup, now: int): (r: Reply<AlarmGroup>)
    ensures r.Ok? && r.value == group.(id := now)
  {
    Ok(MergeGroup(group, GroupPatch(Some(now), None, None, None)))
  }

  /** `updateAlarmGroup`: fails when no mock group has the id, otherwise the
      first such group with the patch applied over it. */
  function UpdateAlarmGroup(id: int, updates: GroupPatch): (r: Reply<AlarmGroup>)
    ensures r.Err? <==> id != 1 && id != 2
    ensures r.Err? ==> r.message == GroupNotFound
    ensures r.Ok? ==> exists i :: 0 <= i < |AlarmGroups()| && AlarmGroups()[i].id == id
                                  && r.value == MergeGroup(AlarmGroups()[i], updates)
  {
    match IdLists.Find(AlarmGroups(), GroupId, id)
    case None => Err(GroupNotFound)
    case Some(g) => Ok(MergeGroup(g, updates))
  }

  /** `deleteAlarmGroup` always answers `true`. */
  function DeleteAlarmGroup(id: int): (r: Reply<bool>)
    ensures r == Ok(true)
  {
    Ok(true)
  }

  /** `activateAlarm` always rejects. */
  function ActivateAlarm(id: int): (r: Reply<AlarmGroup>)
    ensures r.Err? && r.message == ActivateFailed
  {
    Err(ActivateFailed)
  }

  /** `deactivateAlarm`: the stored group with only `isActive` cleared, or
      "not found". */
  function DeactivateAlarm(id: int): (r: Reply<AlarmGroup>)
    ensures r.Err? <==> id != 1 && id != 2
    ensures r.Err? ==> r.message == GroupNotFound
    ensures r.Ok? ==> r.value.id == id && !r.value.isActive
    ensures r.Ok? ==> exists i :: 0 <= i < |AlarmGroups()| && AlarmGroups()[i].id == id
                                  && r.value == AlarmGroups()[i].(isActive := false)
  {
    match IdLists.Find(AlarmGroups(), GroupId, id)
    case None => Err(GroupNotFound)
    case Some(g) => Ok(g.(isActive := false))
  }

  /** `getAllUsers`. */
  const AllUsers := [
    User(1, "admin", "admin@example.com", ["read", "write", "delete"]),
    User(2, "user1", "user1@example.com", ["read"]),
    User(3, "user2", "user2@example.com", ["read", "write"])]

  /** `Partial<User>`. */
  datatype UserPatch = UserPatch(id: Option<int>, username: Option<string>,
                                 email: Option<string>, permissions: Option<seq<string>>)

  /** `{ ...stored, ...updates }`. */
  function MergeUser(stored: User, updates: UserPatch): User {
    User(
      if updates.id.Some? then updates.id.value else stored.id,
      if updates.username.Some? then updates.username.value else stored.username,
      if updates.email.Some? then updates.email.value else stored.email,
      if updates.permissions.Some? then updates.permissions.value else stored.permissions)
  }

  /** The object spread for users: each field of the patch that is present
      wins, each absent one keeps the stored value; an empty patch changes
      nothing, and applying a patch twice is applying it once. */
  lemma MergeUserProperties(stored: User, updates: UserPatch)
    ensures updates == UserPatch(None, None, None, None) ==> MergeUser(stored, updates) == stored
    ensures MergeUser(MergeUser(stored, updates), updates) == MergeUser(stored, updates)
    ensures MergeUser(stored, updates).id == if updates.id.Some? then updates.id.value else stored.id
    ensures MergeUser(stored, updates).username == if updates.username.Some? then updates.username.value else stored.username
    ensures MergeUser(stored, updates).email == if updates.email.Some? then updates.email.value else stored.email
    ensures MergeUser(stored, updates).permissions
            == if updates.permissions.Some? then updates.permissions.value else stored.permissions
  {
  }

  /** `createUser`: the given user's fields with a fresh id. */
  function CreateUser(user: User, now: int): (r: Reply<User>)
    ensures r.Ok? && r.value == user.(id := now)
  {
    Ok(MergeUser(user, UserPatch(Some(now), None, None, None)))
  }

  /** `updateUser`: "not found" unless a mock user has the id, otherwise that
      user with each present field of the patch overriding it. */
  function UpdateUser(id: int, updates: UserPatch): (r: Reply<User>)
    ensures r.Err? <==> id !in {1, 2, 3}
    ensures r.Err? ==> r.message == UserNotFound
    ensures r.Ok? ==> exists i :: 0 <= i < |AllUsers| && AllUsers[i].id == id
                                  && r.value == MergeUser(AllUsers[i], updates)
    ensures r.Ok? ==> (updates.username.None? ==> r.value.username == AllUsers[id - 1].username)
                      && (updates.email.None? ==> r.value.email == AllUsers[id - 1].email)
                      && (updates.permissions.None? ==> r.value.permissions == AllUsers[id - 1].permissions)
  {
    match IdLists.Find(AllUsers, UserId, id)
    case None => Err(UserNotFound)
    case Some(u) => Ok(MergeUser(u, updates))
  }
}

=== FILE: auth_wrapper.dfy ===
/** The gate around the pages (app/components/auth-wrapper.tsx): shows the
    login form until the stored flag or a login says otherwise. */
module AuthWrapper {
  import opened Outcomes
  import Storage
  import LoginForm

  /** What the wrapper renders. */
  datatype View = Children | LoginScreen

  /** Before the effect runs: logged out. */
  const Initial := false

  /** The mount effect: logged in exactly when the stored flag is the text
      `"true"`. */
  function Restore(storage: Storage.Store): (loggedIn: bool)
    ensures loggedIn <==> LoginForm.LoggedInKey in storage
                          && storage[LoginForm.LoggedInKey] == Storage.Text(LoginForm.LoggedInFlag)
  {
    Storage.Get(storage, LoginForm.LoggedInKey) == Some(Storage.Text(LoginForm.LoggedInFlag))
  }

  /** `handleLogin`: logged in, whatever the state was. */
  function HandleLogin(loggedIn: bool): (r: bool)
    ensures r
  {
    true
  }

  /** The children exactly when logged in, the login form otherwise. */
  function Render(loggedIn: bool): (v: View)
    ensures v == Children <==> loggedIn
    ensures v == LoginScreen <==> !loggedIn
  {
    if loggedIn then Children else LoginScreen
  }

  /** A missing flag, or any stored value other than `"true"` (`"false"`,
      `"TRUE"`, a timestamp), restores as logged out. */
  lemma OtherFlagsLogOut(storage: Storage.Store)
    ensures LoginForm.LoggedInKey !in storage ==> !Restore(storage)
    ensures Render(Restore(storage[LoginForm.LoggedInKey := Storage.Text("false")])) == LoginScreen
    ensures Render(Restore(storage[LoginForm.LoggedInKey := Storage.Text("TRUE")])) == LoginScreen
  {
  }

  /** A successful submit of the login form followed by a fresh restore (a
      reload) shows the children; so does the submit's own `onLogin`. */
  lemma SubmitThenRestore(storage: Storage.Store, username: string, password: string)
    requires username != "" && password != ""
    ensures var s := LoginForm.HandleSubmit(storage, username, password);
            && s.onLogin.Some?
            && Render(Restore(s.storage)) == Children
            && Render(HandleLogin(Initial)) == Children
  {
  }

  /** An incomplete submit changes nothing the restore reads. */
  lemma IncompleteSubmitKeepsState(storage: Storage.Store, username: string, password: string)
    requires username == "" || password == ""
    ensures Restore(LoginForm.HandleSubmit(storage, username, password).storage) == Restore(storage)
  {
  }
}

=== FILE: configuration.dfy ===
/** The configuration screen (app/components/configuration.tsx): two
    singleton records, the e-mail settings and the alarm audio, each cached
    as present or absent.  Both of its permission flags are the constant
    `true`, so every branch they guard is always taken. */
module Configuration {
  import opened Outcomes
  import opened Types

  const FetchFailedMessage := "Failed to fetch configurations"
  const EmailDeleteFailedMessage := "Failed to delete email configuration"
  const AudioDeleteFailedMessage := "Failed to delete alarm audio configuration"
  const EmailSaveFailedMessage := "Failed to save email configuration"
  const AudioSaveFailedMessage := "Failed to save alarm audio configuration"

  datatype State = State(
    email: Option<EmailConfig>,
    audio: Option<AudioConfig>,
    emailDialogOpen: bool,
    audioDialogOpen: bool,
    editingEmail: Option<EmailConfig>,
    editingAudio: Option<AudioConfig>,
    error: Option<string>)

  const Initial := State(None, None, false, false, None, None, None)

  /** The backend endpoint a save called. */
  datatype Call = CreateEmail(email: EmailConfig) | UpdateEmail(email: EmailConfig)
                | CreateAudio(audio: AudioConfig) | UpdateAudio(audio: AudioConfig)

  datatype Step = Step(state: State, call: Call)

  /** The mount effect: the e-mail record is fetched and stored, then the
      audio record; a failure of the first skips the second. */
  function FetchConfigs(st: State, email: Reply<Option<EmailConfig>>, audio: Reply<Option<AudioConfig>>): (r: State)
    ensures email.Err? ==> r == st.(error := Some(FetchFailedMessage))
    ensures email.Ok? && audio.Err? ==> r == st.(email := email.value, error := Some(FetchFailedMessage))
    ensures email.Ok? && audio.Ok? ==> r == st.(email := email.value, audio := audio.value)
  {
    match email
    case Err(_) => st.(error := Some(FetchFailedMessage))
    case Ok(e) =>
      var withEmail := st.(email := e);
      match audio
      case Err(_) => withEmail.(error := Some(FetchFailedMessage))
      case Ok(a) => withEmail.(audio := a)
  }

  /** `handleAddEmailConfig`: an all-empty draft with port 0. */
  function HandleAddEmailConfig(st: State): (r: State)
    ensures r.emailDialogOpen && r.editingEmail == Some(EmailConfig("", 0, "", "", ""))
    ensures r == st.(editingEmail := r.editingEmail, emailDialogOpen := true)
  {
    st.(editingEmail := Some(EmailConfig("", 0, "", "", "")), emailDialogOpen := true)
  }

  /** `handleAddAudioConfig`: a draft with no audio file. */
  function HandleAddAudioConfig(st: State): (r: State)
    ensures r.audioDialogOpen && r.editingAudio == Some(AudioConfig(None))
    ensures r == st.(editingAudio := r.editingAudio, audioDialogOpen := true)
  {
    st.(editingAudio := Some(AudioConfig(None)), audioDialogOpen := true)
  }

  /** `handleSaveEmailConfig`: updates when a record is cached and creates
      when none is; the answer becomes the cache and closes the dialog.  A
      rejection keeps cache and dialog and reports. */
  function HandleSaveEmailConfig(st: State, config: EmailConfig, reply: Reply<EmailConfig>): (r: Step)
    ensures r.call == if st.email.Some? then UpdateEmail(config) else CreateEmail(config)
    ensures reply.Ok? ==> r.state == st.(email := Some(reply.value), emailDialogOpen := false)
    ensures reply.Err? ==> r.state == st.(error := Some(EmailSaveFailedMessage))
  {
    var call := if st.email.Some? then UpdateEmail(config) else CreateEmail(config);
    match reply
    case Ok(saved) => Step(st.(email := Some(saved), emailDialogOpen := false), call)
    case Err(_) => Step(st.(error := Some(EmailSaveFailedMessage)), call)
  }

  /** `handleSaveAudioConfig`: the same rule for the audio record. */
  function HandleSaveAudioConfig(st: State, config: AudioConfig, reply: Reply<AudioConfig>): (r: Step)
    ensures r.call == if st.audio.Some? then UpdateAudio(config) else CreateAudio(config)
    ensures reply.Ok? ==> r.state == st.(audio := Some(reply.value), audioDialogOpen := false)
    ensures reply.Err? ==> r.state == st.(error := Some(AudioSaveFailedMessage))
  {
    var call := if st.audio.Some? then UpdateAudio(config) else CreateAudio(config);
    match reply
    case Ok(saved) => Step(st.(audio := Some(saved), audioDialogOpen := false), call)
    case Err(_) => Step(st.(error := Some(AudioSaveFailedMessage)), call)
  }

  /** `handleDeleteEmailConfig`: a confirmed delete empties the cache. */
  function HandleDeleteEmailConfig(st: State, reply: Reply<bool>): (r: State)
    ensures reply.Ok? ==> r == st.(email := None)
    ensures reply.Err? ==> r == st.(error := Some(EmailDeleteFailedMessage))
  {
    if reply.Ok? then st.(email := None) else st.(error := Some(EmailDeleteFailedMessage))
  }

  /** `handleDeleteAudioConfig`. */
  function HandleDeleteAudioConfig(st: State, reply: Reply<bool>): (r: State)
    ensures reply.Ok? ==> r == st.(audio := None)
    ensures reply.Err? ==> r == st.(error := Some(AudioDeleteFailedMessage))
  {
    if reply.Ok? then st.(audio := None) else st.(error := Some(AudioDeleteFailedMessage))
  }

  /** Presence decides the endpoint: after a successful save the next save
      of the same record is an update, and after a successful delete it is a
      create again. */
  lemma SingletonLifecycle(st: State, c1: EmailConfig, saved: EmailConfig, c2: EmailConfig,
                           reply: Reply<EmailConfig>, ok: bool)
    ensures var afterSave := HandleSaveEmailConfig(st, c1, Ok(saved)).state;
            && HandleSaveEmailConfig(afterSave, c2, reply).call == UpdateEmail(c2)
            && HandleSaveEmailConfig(HandleDeleteEmailConfig(afterSave, Ok(ok)), c2, reply).call == CreateEmail(c2)
  {
  }

  /** The audio record follows the same lifecycle, independently of the
      e-mail record. */
  lemma AudioLifecycleIndependent(st: State, c1: AudioConfig, saved: AudioConfig, c2: AudioConfig,
                                  reply: Reply<AudioConfig>, ok: bool)
    ensures var afterSave := HandleSaveAudioConfig(st, c1, Ok(saved)).state;
            && afterSave.email == st.email
            && HandleSaveAudioConfig(afterSave, c2, reply).call == UpdateAudio(c2)
            && HandleSaveAudioConfig(HandleDeleteAudioConfig(afterSave, Ok(ok)), c2, reply).call == CreateAudio(c2)
  {
  }
}

=== FILE: devices.dfy ===
/** The devices screen (app/components/devices.tsx): two independent local
    lists, RTSP cameras and magnetic reeds, kept in step with the backend. */
module Devices {
  import opened Outcomes
  import opened Types
  import IdLists

  const FetchFailedMessage := "Failed to fetch devices"

  /** The `'camera' | 'reed'` discriminator. */
  datatype Kind = CameraKind | ReedKind

  /** The device being edited, tagged with its kind. */
  datatype Draft = CameraDraft(camera: RtspCamera) | ReedDraft(reed: MagneticReed) {
    function Kind(): Kind {
      match this
      case CameraDraft(_) => CameraKind
      case ReedDraft(_) => ReedKind
    }
    function Id(): int {
      if CameraDraft? then camera.id else reed.id
    }
  }

  datatype State = State(
    cameras: seq<RtspCamera>,
    reeds: seq<MagneticReed>,
    dialogOpen: bool,
    editing: Option<Draft>,
    deviceType: Kind,
    error: Option<string>)

  const Initial := State([], [], false, None, CameraKind, None)

  /** The kind's name as the error messages spell it. */
  function KindName(k: Kind): string {
    if k == CameraKind then "camera" else "reed"
  }

  function DeleteFailedMessage(k: Kind): string { "Failed to delete " + KindName(k) }
  function SaveFailedMessage(k: Kind): string { "Failed to save " + KindName(k) }

  /** `canModifyDevices`: holding MODIFY_DEVICES (it only hides the edit
      controls; the handlers below do not consult it). */
  predicate CanModifyDevices(permissions: seq<Permission>) { ModifyDevices in permissions }

  /** `canAccessStreamCameras`: holding ACCESS_STREAM_CAMERAS. */
  predicate CanAccessStreamCameras(permissions: seq<Permission>) { AccessStreamCameras in permissions }

  /** The two flags test two different permissions: either may hold without
      the other. */
  lemma PermissionFlagsIndependent()
    ensures CanModifyDevices([ModifyDevices]) && !CanAccessStreamCameras([ModifyDevices])
    ensures CanAccessStreamCameras([AccessStreamCameras]) && !CanModifyDevices([AccessStreamCameras])
    ensures forall p: seq<Permission> :: CanModifyDevices(p) <==> exists i :: 0 <= i < |p| && p[i] == ModifyDevices
  {
    assert [ModifyDevices][0] == ModifyDevices;
    assert [AccessStreamCameras][0] == AccessStreamCameras;
  }

  /** The mount effect: both lists are fetched first and set together, so a
      failure of either fetch sets neither. */
  function FetchDevices(st: State, cameras: Reply<seq<RtspCamera>>, reeds: Reply<seq<MagneticReed>>): (r: State)
    ensures cameras.Ok? && reeds.Ok? ==> r == st.(cameras := cameras.value, reeds := reeds.value)
    ensures cameras.Err? || reeds.Err? ==> r == st.(error := Some(FetchFailedMessage))
  {
    if cameras.Ok? && reeds.Ok? then st.(cameras := cameras.value, reeds := reeds.value)
    else st.(error := Some(FetchFailedMessage))
  }

  /** `handleAddDevice`: a blank draft with id 0 of the requested kind. */
  function HandleAddDevice(st: State, kind: Kind): (r: State)
    ensures r.dialogOpen && r.deviceType == kind
    ensures r.editing.Some? && r.editing.value.Kind() == kind && r.editing.value.Id() == 0
    ensures r.cameras == st.cameras && r.reeds == st.reeds && r.error == st.error
  {
    var draft := match kind
      case CameraKind => CameraDraft(RtspCamera(0, "", "", 0, "", ""))
      case ReedKind => ReedDraft(MagneticReed(0, "", 0, true));
    st.(deviceType := kind, editing := Some(draft), dialogOpen := true)
  }

  /** `handleEditDevice`: the device itself becomes the draft. */
  function HandleEditDevice(st: State, device: Draft): (r: State)
    ensures r.dialogOpen && r.editing == Some(device) && r.deviceType == device.Kind()
    ensures r.cameras == st.cameras && r.reeds == st.reeds && r.error == st.error
  {
    st.(deviceType := device.Kind(), editing := Some(device), dialogOpen := true)
  }

  /** `handleDeleteDevice`: removes by id from the list of the given kind
      only, once the backend has confirmed; a rejection changes no list and
      reports an error naming the kind. */
  function HandleDeleteDevice(st: State, id: int, kind: Kind, reply: Reply<bool>): (r: State)
    ensures reply.Err? ==> r == st.(error := Some(DeleteFailedMessage(kind)))
    ensures reply.Ok? && kind == CameraKind ==>
              && r == st.(cameras := r.cameras)
              && (forall c :: c in r.cameras <==> c in st.cameras && c.id != id)
              && (forall c :: multiset(r.cameras)[c] == if c.id == id then 0 else multiset(st.cameras)[c])
              && r.cameras == IdLists.Without(st.cameras, CameraId, id)
    ensures reply.Ok? && kind == ReedKind ==>
              && r == st.(reeds := r.reeds)
              && (forall x :: x in r.reeds <==> x in st.reeds && x.id != id)
              && (forall x :: multiset(r.reeds)[x] == if x.id == id then 0 else multiset(st.reeds)[x])
              && r.reeds == IdLists.Without(st.reeds, ReedId, id)
  {
    match reply
    case Err(_) => st.(error := Some(DeleteFailedMessage(kind)))
    case Ok(_) =>
      if kind == CameraKind then
        var kept := IdLists.Without(st.cameras, CameraId, id);
        IdLists.WithoutCountsAll(st.cameras, CameraId, id);
        assert forall c :: c in st.cameras && c.id != id ==> c in kept by {
          forall c | c in st.cameras && c.id != id ensures c in kept {
            var i :| 0 <= i < |st.cameras| && st.cameras[i] == c;
          }
        }
        st.(cameras := kept)
      else
        var kept := IdLists.Without(st.reeds, ReedId, id);
        IdLists.WithoutCountsAll(st.reeds, ReedId, id);
        assert forall x :: x in st.reeds && x.id != id ==> x in kept by {
          forall x | x in st.reeds && x.id != id ensures x in kept {
            var i :| 0 <= i < |st.reeds| && st.reeds[i] == x;
          }
        }
        st.(reeds := kept)
  }

  /** The answer of the endpoint `handleSaveDevice` calls: a camera for the
      camera kind, a reed for the reed kind. */
  datatype Saved = SavedCamera(camera: RtspCamera) | SavedReed(reed: MagneticReed)

  /** `handleSaveDevice`.  The branch follows the screen's `deviceType`,
      which is always set together with the draft.  Id 0 creates and appends,
      any other id updates and replaces, by the answered id, in place; only
      the list of that kind changes, and only success closes the dialog. */
  function HandleSaveDevice(st: State, draft: Draft, reply: Reply<Saved>): (r: State)
    requires draft.Kind() == st.deviceType
    requires reply.Ok? ==> (reply.value.SavedCamera? <==> st.deviceType == CameraKind)
    ensures reply.Err? ==> r == st.(error := Some(SaveFailedMessage(st.deviceType)))
    ensures reply.Ok? && draft.CameraDraft? ==>
              && r == st.(cameras := r.cameras, dialogOpen := false)
              && (draft.Id() == 0 ==> r.cameras == st.cameras + [reply.value.camera])
              && (draft.Id() != 0 ==> |r.cameras| == |st.cameras|)
              && (draft.Id() != 0 ==> forall i :: 0 <= i < |st.cameras| ==>
                    r.cameras[i] == if st.cameras[i].id == reply.value.camera.id then reply.value.camera else st.cameras[i])
    ensures reply.Ok? && draft.ReedDraft? ==>
              && r == st.(reeds := r.reeds, dialogOpen := false)
              && (draft.Id() == 0 ==> r.reeds == st.reeds + [reply.value.reed])
              && (draft.Id() != 0 ==> |r.reeds| == |st.reeds|)
              && (draft.Id() != 0 ==> forall i :: 0 <= i < |st.reeds| ==>
                    r.reeds[i] == if st.reeds[i].id == reply.value.reed.id then reply.value.reed else st.reeds[i])
  {
    match reply
    case Err(_) => st.(error := Some(SaveFailedMessage(st.deviceType)))
    case Ok(SavedCamera(c)) =>
      var cameras := if draft.Id() == 0 then st.cameras + [c]
                     else IdLists.Replace(st.cameras, CameraId, c.id, c);
      st.(cameras := cameras, dialogOpen := false)
    case Ok(SavedReed(x)) =>
      var reeds := if draft.Id() == 0 then st.reeds + [x]
                   else IdLists.Replace(st.reeds, ReedId, x.id, x);
      st.(reeds := reeds, dialogOpen := false)
  }

  /** The add flow end to end: open a blank draft of a kind, save it, and
      the created device is the new last entry of that kind's list while
      the other list is untouched. */
  lemma AddThenSave(st: State, kind: Kind, created: Saved)
    requires created.SavedCamera? <==> kind == CameraKind
    ensures var added := HandleAddDevice(st, kind);
            var r := HandleSaveDevice(added, added.editing.value, Ok(created));
            && !r.dialogOpen
            && (kind == CameraKind ==> r.cameras == st.cameras + [created.camera] && r.reeds == st.reeds)
            && (kind == ReedKind ==> r.reeds == st.reeds + [created.reed] && r.cameras == st.cameras)
  {
  }
}

=== FILE: filename_order.dfy ===
/** The order the recordings screen sorts by, and the sort itself.
    `String.prototype.localeCompare` depends on the locale's collation; here
    it is modelled as plain lexicographic order on characters. */
module FilenameOrder {
  import opened Types

  /** `a` sorts before or together with `b`: lexicographic, a proper prefix
      first. */
  predicate LessEq(a: string, b: string)
    decreases |a|
  {
    |a| == 0 || (|b| > 0 && (a[0] < b[0] || (a[0] == b[0] && LessEq(a[1..], b[1..]))))
  }

  lemma {:induction false} LessEqTotal(a: string, b: string)
    ensures LessEq(a, b) || LessEq(b, a)
    decreases |a|
  {
    if |a| > 0 && |b| > 0 && a[0] == b[0] {
      LessEqTotal(a[1..], b[1..]);
    }
  }

  lemma {:induction false} LessEqTransitive(a: string, b: string, c: string)
    requires LessEq(a, b) && LessEq(b, c)
    ensures LessEq(a, c)
    decreases |a|
  {
    if |a| > 0 && a[0] == b[0] && b[0] == c[0] {
      LessEqTransitive(a[1..], b[1..], c[1..]);
    }
  }

  predicate SortedByFilename(s: seq<Recording>) {
    forall i, j :: 0 <= i < j < |s| ==> LessEq(s[i].filename, s[j].filename)
  }

  /** A filename no greater than every filename of a sorted list can be put
      in front of it. */
  lemma PrependSorted(x: Recording, s: seq<Recording>)
    requires SortedByFilename(s)
    requires forall k :: 0 <= k < |s| ==> LessEq(x.filename, s[k].filename)
    ensures SortedByFilename([x] + s)
  {
    var t := [x] + s;
    forall i, j | 0 <= i < j < |t| ensures LessEq(t[i].filename, t[j].filename) {
      if i > 0 { assert t[i] == s[i - 1] && t[j] == s[j - 1]; }
      else { assert t[j] == s[j - 1]; }
    }
  }

  /** Below the head of a sorted list means below all of it. */
  lemma BelowHead(x: Recording, s: seq<Recording>)
    requires SortedByFilename(s) && |s| > 0
    requires LessEq(x.filename, s[0].filename)
    ensures forall k :: 0 <= k < |s| ==> LessEq(x.filename, s[k].filename)
  {
    forall k | 0 < k < |s| ensures LessEq(x.filename, s[k].filename) {
      LessEqTransitive(x.filename, s[0].filename, s[k].filename);
    }
  }

  /** Every element of `t` comes from the tail of sorted `s` or is `r`, and
      all of those are at or above the head of `s`. */
  lemma HeadBelowAll(s: seq<Recording>, r: Recording, t: seq<Recording>)
    requires SortedByFilename(s) && |s| > 0
    requires LessEq(s[0].filename, r.filename)
    requires multiset(t) == multiset(s[1..]) + multiset{r}
    ensures forall k :: 0 <= k < |t| ==> LessEq(s[0].filename, t[k].filename)
  {
    forall k | 0 <= k < |t| ensures LessEq(s[0].filename, t[k].filename) {
      assert t[k] in multiset(t);
      if t[k] != r {
        assert t[k] in multiset(s[1..]);
        var m :| 0 <= m < |s[1..]| && s[1..][m] == t[k];
        assert s[m + 1] == t[k];
      }
    }
  }

  /** Inserts `r` before the first element it sorts before or with, so equal
      filenames keep their original relative order (the sort is stable). */
  function Insert(r: Recording, s: seq<Recording>): (t: seq<Recording>)
    requires SortedByFilename(s)
    ensures SortedByFilename(t)
    ensures multiset(t) == multiset(s) + multiset{r}
  {
    if |s| == 0 then [r]
    else if LessEq(r.filename, s[0].filename) then
      BelowHead(r, s);
      PrependSorted(r, s);
      [r] + s
    else
      var rest := Insert(r, s[1..]);
      LessEqTotal(r.filename, s[0].filename);
      HeadBelowAll(s, r, rest);
      PrependSorted(s[0], rest);
      assert s == [s[0]] + s[1..];
      [s[0]] + rest
  }

  /** `sort` with a filename comparator: ascending by filename, same
      elements. */
  function SortByFilename(s: seq<Recording>): (t: seq<Recording>)
    ensures SortedByFilename(t)
    ensures multiset(t) == multiset(s)
  {
    if |s| == 0 then []
    else
      assert s == [s[0]] + s[1..];
      Insert(s[0], SortByFilename(s[1..]))
  }
}

=== FILE: id_lists.dfy ===
/** The three list idioms every screen uses on its local cache, stated once
    for any element type and any key that identifies an element (the
    numeric `id` of a record, or a permission string itself):
    `list.find(x => x.id === id)`, `list.filter(x => x.id !== id)` and
    `list.map(x => x.id === id ? v : x)`. */
module IdLists {
  import opened Outcomes

  /** True when some element carries the id. */
  predicate HasId<T, K(==)>(s: seq<T>, key: T -> K, id: K) {
    exists i :: 0 <= i < |s| && key(s[i]) == id
  }

  /** `Array.prototype.find`: the FIRST element with the id, if any. */
  function Find<T, K(==)>(s: seq<T>, key: T -> K, id: K): (r: Option<T>)
    ensures r.None? <==> !HasId(s, key, id)
    ensures r.Some? ==> exists i :: 0 <= i < |s| && s[i] == r.value && key(s[i]) == id
                                    && forall j :: 0 <= j < i ==> key(s[j]) != id
  {
    if |s| == 0 then None
    else if key(s[0]) == id then Some(s[0])
    else
      var r := Find(s[1..], key, id);
      assert HasId(s, key, id) ==> HasId(s[1..], key, id) by {
        if HasId(s, key, id) {
          var i :| 0 <= i < |s| && key(s[i]) == id;
          assert key(s[1..][i - 1]) == id;
        }
      }
      assert r.Some? ==> exists i :: 0 <= i < |s| && s[i] == r.value && key(s[i]) == id
                                    && forall j :: 0 <= j < i ==> key(s[j]) != id by {
        if r.Some? {
          var i :| 0 <= i < |s[1..]| && s[1..][i] == r.value && key(s[1..][i]) == id
                   && forall j :: 0 <= j < i ==> key(s[1..][j]) != id;
          assert s[i + 1] == r.value;
          assert forall j :: 0 <= j < i + 1 ==> key(s[j]) != id by {
            forall j | 0 <= j < i + 1 ensures key(s[j]) != id {
              if j > 0 { assert s[j] == s[1..][j - 1]; }
            }
          }
        }
      }
      r
  }

  /** `filter(x => x.id !== id)`: drops exactly the elements with the id and
      keeps the others in their order.  What it keeps is stated by
      `WithoutMembers`, `WithoutCounts` and `WithoutConcat`. */
  function Without<T(!new), K(==)>(s: seq<T>, key: T -> K, id: K): (r: seq<T>)
    ensures |r| <= |s|
  {
    if |s| == 0 then []
    else if key(s[0]) == id then Without(s[1..], key, id)
    else [s[0]] + Without(s[1..], key, id)
  }

  /** No kept element has the id, every element without it is kept, nothing
      new appears, and the list shrinks exactly when some element had the
      id. */
  lemma {:induction false} WithoutMembers<T(!new), K>(s: seq<T>, key: T -> K, id: K)
    ensures var r := Without(s, key, id);
            && (forall i :: 0 <= i < |r| ==> key(r[i]) != id)
            && (forall i :: 0 <= i < |s| && key(s[i]) != id ==> s[i] in r)
            && (forall x :: x in r ==> x in s)
            && (|r| < |s| <==> HasId(s, key, id))
  {
    if |s| > 0 {
      WithoutMembers(s[1..], key, id);
      assert forall x :: x in s[1..] ==> x in s;
      assert HasId(s, key, id) <==> key(s[0]) == id || HasId(s[1..], key, id) by {
        if HasId(s, key, id) {
          var i :| 0 <= i < |s| && key(s[i]) == id;
          if i > 0 { assert key(s[1..][i - 1]) == id; }
        }
        if HasId(s[1..], key, id) {
          var i :| 0 <= i < |s[1..]| && key(s[1..][i]) == id;
          assert key(s[i + 1]) == id;
        }
      }
      assert forall i :: 1 <= i < |s| ==> s[i] == s[1..][i - 1];
    }
  }

  /** The filter keeps every element without the id exactly as often as
      the input holds it, and no element with the id. */
  lemma {:induction false} WithoutCounts<T(!new), K>(s: seq<T>, key: T -> K, id: K, x: T)
    ensures multiset(Without(s, key, id))[x] == if key(x) == id then 0 else multiset(s)[x]
  {
    if |s| > 0 {
      WithoutCounts(s[1..], key, id, x);
      assert s == [s[0]] + s[1..];
      assert multiset(s) == multiset([s[0]]) + multiset(s[1..]);
      if key(s[0]) != id {
        assert multiset(Without(s, key, id)) == multiset([s[0]]) + multiset(Without(s[1..], key, id));
      }
    }
  }

  /** `WithoutCounts` for every element at once, with `WithoutMembers`. */
  lemma WithoutCountsAll<T(!new), K>(s: seq<T>, key: T -> K, id: K)
    ensures forall x :: multiset(Without(s, key, id))[x] == if key(x) == id then 0 else multiset(s)[x]
    ensures var r := Without(s, key, id);
            && (forall i :: 0 <= i < |r| ==> key(r[i]) != id)
            && (forall i :: 0 <= i < |s| && key(s[i]) != id ==> s[i] in r)
            && (forall x :: x in r ==> x in s)
            && (|r| < |s| <==> HasId(s, key, id))
  {
    forall x ensures multiset(Without(s, key, id))[x] == if key(x) == id then 0 else multiset(s)[x] {
      WithoutCounts(s, key, id, x);
    }
    WithoutMembers(s, key, id);
  }

  /** One step of the filter: the head is kept exactly when it lacks the id. */
  lemma WithoutCons<T(!new), K>(s: seq<T>, key: T -> K, id: K)
    requires |s| > 0
    ensures Without(s, key, id) == (if key(s[0]) == id then [] else [s[0]]) + Without(s[1..], key, id)
  {
  }

  /** The filter works element by element, so the kept elements stay in
      their order: filtering a concatenation filters each part. */
  lemma {:induction false} WithoutConcat<T(!new), K>(a: seq<T>, b: seq<T>, key: T -> K, id: K)
    ensures Without(a + b, key, id) == Without(a, key, id) + Without(b, key, id)
  {
    if |a| == 0 {
      assert a + b == b;
    } else {
      var ab := a + b;
      assert ab[0] == a[0] && ab[1..] == a[1..] + b;
      WithoutCons(ab, key, id);
      WithoutCons(a, key, id);
      WithoutConcat(a[1..], b, key, id);
      var h := if key(a[0]) == id then [] else [a[0]];
      assert h + (Without(a[1..], key, id) + Without(b, key, id))
          == (h + Without(a[1..], key, id)) + Without(b, key, id);
    }
  }

  /** A single element is kept exactly when it lacks the id. */
  lemma WithoutSingleton<T(!new), K>(x: T, key: T -> K, id: K)
    ensures Without([x], key, id) == if key(x) == id then [] else [x]
  {
    assert [x][1..] == [];
  }

  /** `map(x => x.id === id ? v : x)`: every element with the id becomes `v`,
      every other element stays where it was. */
  function Replace<T, K(==)>(s: seq<T>, key: T -> K, id: K, v: T): (r: seq<T>)
    ensures |r| == |s|
    ensures forall i :: 0 <= i < |s| && key(s[i]) == id ==> r[i] == v
    ensures forall i :: 0 <= i < |s| && key(s[i]) != id ==> r[i] == s[i]
  {
    if |s| == 0 then []
    else
      var rest := Replace(s[1..], key, id, v);
      assert forall i :: 1 <= i < |s| ==> s[i] == s[1..][i - 1];
      [if key(s[0]) == id then v else s[0]] + rest
  }

  /** Dropping the id of an element just appended, and absent before, gives
      back the list as it was: delete undoes create. */
  lemma {:induction false} WithoutAppended<T(!new), K>(s: seq<T>, key: T -> K, v: T)
    requires !HasId(s, key, key(v))
    ensures Without(s + [v], key, key(v)) == s
  {
    if |s| == 0 {
      assert s + [v] == [v];
    } else {
      assert (s + [v])[1..] == s[1..] + [v];
      forall i | 0 <= i < |s[1..]|
        ensures key(s[1..][i]) != key(v)
      {
        assert s[1..][i] == s[i + 1];
      }
      WithoutAppended(s[1..], key, v);
      assert key(s[0]) != key(v);
      assert s == [s[0]] + s[1..];
    }
  }

  /** After a replace by id, finding that id yields the replacement, provided
      the replacement carries the id and some element did. */
  lemma FindAfterReplace<T, K>(s: seq<T>, key: T -> K, v: T)
    requires HasId(s, key, key(v))
    ensures Find(Replace(s, key, key(v), v), key, key(v)) == Some(v)
  {
    var r := Replace(s, key, key(v), v);
    var i :| 0 <= i < |s| && key(s[i]) == key(v);
    assert key(r[i]) == key(v);
    var f := Find(r, key, key(v));
    var k :| 0 <= k < |r| && r[k] == f.value && key(r[k]) == key(v)
             && forall j :: 0 <= j < k ==> key(r[j]) != key(v);
    assert key(s[k]) == key(v);
  }
}

=== FILE: login_form.dfy ===
/** The plain login form (app/components/login.tsx): no backend, a flag in
    storage. */
module LoginForm {
  import opened Outcomes
  import Storage

  const LoggedInKey := "isLoggedIn"
  const UsernameKey := "username"
  const LoggedInFlag := "true"

  /** The storage after a submit, and the argument `onLogin` was called
      with, if it was called. */
  datatype Submit = Submit(storage: Storage.Store, onLogin: Option<string>)

  /** `handleSubmit`: with both fields filled in, stores the flag `"true"`
      and the username, then calls `onLogin` with the username; with either
      field empty, does nothing. */
  function HandleSubmit(storage: Storage.Store, username: string, password: string): (r: Submit)
    ensures username == "" || password == "" ==> r == Submit(storage, None)
    ensures username != "" && password != "" ==>
              && r.onLogin == Some(username)
              && LoggedInKey in r.storage && r.storage[LoggedInKey] == Storage.Text(LoggedInFlag)
              && UsernameKey in r.storage && r.storage[UsernameKey] == Storage.Text(username)
              && (forall k :: k != LoggedInKey && k != UsernameKey ==>
                    (k in r.storage <==> k in storage) && (k in storage ==> r.storage[k] == storage[k]))
  {
    if username != "" && password != "" then
      Submit(storage[LoggedInKey := Storage.Text(LoggedInFlag)][UsernameKey := Storage.Text(username)], Some(username))
    else Submit(storage, None)
  }
}

=== FILE: outcomes.dfy ===
/** Optional values and the outcome of an awaited backend call. */
module Outcomes {

  /** A value that may be absent: the model of a TypeScript `T | null`. */
  datatype Option<+T> = None | Some(value: T)

  /** What an awaited backend promise produced: the resolved value, or the
      rejection (a thrown `Error` together with its message). */
  datatype Reply<+T> = Ok(value: T) | Err(message: string)
}

=== FILE: recordings.dfy ===
/** The recordings screen (app/components/recordings.tsx): the completed,
    filename-ordered list, the camera map keyed by IP, and delete. */
module Recordings {
  import opened Outcomes
  import opened Types
  import IdLists
  import FilenameOrder

  const FetchFailedMessage := "Failed to fetch recordings and storage information"
  const DeleteFailedMessage := "Failed to delete recording"
  const UnknownCamera := "Unknown Camera"

  datatype State = State(
    recordings: seq<Recording>,
    cameras: map<string, Camera>,
    storageInfo: Option<StorageInfo>,
    error: Option<string>)

  const Initial := State([], map[], None, None)

  /** `filter(recording => recording.is_completed)`: the completed
      recordings, in their input order. */
  function Completed(all: seq<Recording>): (r: seq<Recording>)
    ensures |r| <= |all|
    ensures forall i :: 0 <= i < |r| ==> r[i].isCompleted
    ensures forall x :: x in r <==> x in all && x.isCompleted
  {
    if |all| == 0 then []
    else
      assert all == [all[0]] + all[1..];
      (if all[0].isCompleted then [all[0]] else []) + Completed(all[1..])
  }

  /** The filter keeps every completed recording as often as the input has
      it, and no incomplete one. */
  lemma {:induction false} CompletedCounts(all: seq<Recording>, x: Recording)
    ensures multiset(Completed(all))[x] == if x.isCompleted then multiset(all)[x] else 0
  {
    if |all| > 0 {
      CompletedCounts(all[1..], x);
      assert all == [all[0]] + all[1..];
    }
  }

  /** The list the screen stores: exactly the completed recordings, sorted by
      filename. */
  function LoadedRecordings(all: seq<Recording>): (r: seq<Recording>)
    ensures FilenameOrder.SortedByFilename(r)
    ensures multiset(r) == multiset(Completed(all))
    ensures forall x :: x in r <==> x in all && x.isCompleted
  {
    var r := FilenameOrder.SortByFilename(Completed(all));
    assert forall x :: x in r <==> x in multiset(Completed(all));
    r
  }

  /** The IPs asked of `getCamera`, one per stored recording, in order. */
  function CameraIps(recs: seq<Recording>): (ips: seq<string>)
    ensures |ips| == |recs|
    ensures forall i :: 0 <= i < |recs| ==> ips[i] == recs[i].cameraIp
  {
    seq(|recs|, i requires 0 <= i < |recs| => recs[i].cameraIp)
  }

  /** `Promise.all` over one `getCamera` call per IP.  `lookup(i, ip)` is the
      answer of the call at position `i`, so two calls for the same IP may
      answer differently.  Every camera in request order when every call
      resolves, a rejection when one rejects. */
  function GatherCameras(ips: seq<string>, lookup: (int, string) -> Reply<Camera>): (r: Reply<seq<Camera>>)
    ensures r.Ok? <==> forall i :: 0 <= i < |ips| ==> lookup(i, ips[i]).Ok?
    ensures r.Ok? ==> |r.value| == |ips|
    ensures r.Ok? ==> forall i :: 0 <= i < |ips| ==> r.value[i] == lookup(i, ips[i]).value
  {
    if |ips| == 0 then Ok([])
    else
      var n := |ips| - 1;
      var front := GatherCameras(ips[..n], lookup);
      assert forall i :: 0 <= i < n ==> ips[..n][i] == ips[i];
      if front.Err? then Err(front.message)
      else
        match lookup(n, ips[n])
        case Err(m) => Err(m)
        case Ok(c) => Ok(front.value + [c])
  }

  /** No camera after index `i` has the IP of camera `i`. */
  predicate LastOfIp(cams: seq<Camera>, i: int)
    requires 0 <= i < |cams|
  {
    forall j :: i < j < |cams| ==> cams[j].ip != cams[i].ip
  }

  /** The `reduce` that keys each camera by its own IP, a later camera
      overwriting an earlier one with the same IP. */
  function CameraMap(cams: seq<Camera>): map<string, Camera> {
    if |cams| == 0 then map[]
    else CameraMap(cams[..|cams| - 1])[cams[|cams| - 1].ip := cams[|cams| - 1]]
  }

  /** The keys of the camera map are exactly the IPs of the cameras. */
  lemma {:induction false} CameraMapKeys(cams: seq<Camera>)
    ensures forall ip :: ip in CameraMap(cams) <==> exists i :: 0 <= i < |cams| && cams[i].ip == ip
  {
    if |cams| > 0 {
      var n := |cams| - 1;
      var prefix := cams[..n];
      CameraMapKeys(prefix);
      assert CameraMap(cams) == CameraMap(prefix)[cams[n].ip := cams[n]];
      assert forall i :: 0 <= i < n ==> prefix[i] == cams[i];
      forall ip | ip in CameraMap(cams) ensures exists i :: 0 <= i < |cams| && cams[i].ip == ip {
        if ip != cams[n].ip {
          assert ip in CameraMap(prefix);
          var i :| 0 <= i < n && prefix[i].ip == ip;
          assert cams[i].ip == ip;
        }
      }
      forall ip | exists i :: 0 <= i < |cams| && cams[i].ip == ip ensures ip in CameraMap(cams) {
        var i :| 0 <= i < |cams| && cams[i].ip == ip;
        if i < n { assert prefix[i].ip == ip; }
      }
    }
  }

  /** Every camera is found under its own IP unless a later camera has the
      same IP: the later result wins. */
  lemma {:induction false} CameraMapLaterWins(cams: seq<Camera>, i: int)
    requires 0 <= i < |cams| && LastOfIp(cams, i)
    ensures cams[i].ip in CameraMap(cams) && CameraMap(cams)[cams[i].ip] == cams[i]
  {
    var n := |cams| - 1;
    if i < n {
      var prefix := cams[..n];
      assert prefix[i] == cams[i];
      assert cams[n].ip != cams[i].ip;
      assert LastOfIp(prefix, i) by {
        forall j | i < j < |prefix| ensures prefix[j].ip != prefix[i].ip {
          assert prefix[j] == cams[j];
        }
      }
      CameraMapLaterWins(prefix, i);
    }
  }

  /** The mount effect.  The recordings are stored before any camera is
      asked for, so a later failure leaves them set; each later failure
      stops the remaining steps and sets the one error message. */
  function FetchData(st: State, all: Reply<seq<Recording>>, lookup: (int, string) -> Reply<Camera>,
                     storage: Reply<StorageInfo>): (r: State)
    ensures all.Err? ==> r == st.(error := Some(FetchFailedMessage))
    ensures all.Ok? ==> r.recordings == LoadedRecordings(all.value)
    ensures all.Ok? && GatherCameras(CameraIps(r.recordings), lookup).Err? ==>
              r.cameras == st.cameras && r.storageInfo == st.storageInfo && r.error == Some(FetchFailedMessage)
    ensures all.Ok? && GatherCameras(CameraIps(r.recordings), lookup).Ok? ==>
              r.cameras == CameraMap(GatherCameras(CameraIps(r.recordings), lookup).value)
              && (storage.Ok? ==> r.storageInfo == Some(storage.value) && r.error == st.error)
              && (storage.Err? ==> r.storageInfo == st.storageInfo && r.error == Some(FetchFailedMessage))
  {
    match all
    case Err(_) => st.(error := Some(FetchFailedMessage))
    case Ok(raw) =>
      var loaded := LoadedRecordings(raw);
      var withRecordings := st.(recordings := loaded);
      match GatherCameras(CameraIps(loaded), lookup)
      case Err(_) => withRecordings.(error := Some(FetchFailedMessage))
      case Ok(cams) =>
        var withCameras := withRecordings.(cameras := CameraMap(cams));
        match storage
        case Err(_) => withCameras.(error := Some(FetchFailedMessage))
        case Ok(info) => withCameras.(storageInfo := Some(info))
  }

  /** `handleDelete`: the recording disappears only once the backend has
      confirmed; a rejection keeps it and reports. */
  function HandleDelete(st: State, id: int, reply: Reply<bool>): (r: State)
    ensures reply.Ok? ==> r.error == st.error && r.cameras == st.cameras && r.storageInfo == st.storageInfo
    ensures reply.Ok? ==> forall x :: x in r.recordings <==> x in st.recordings && x.id != id
    ensures reply.Ok? ==> |r.recordings| <= |st.recordings|
    ensures reply.Ok? ==> forall x :: multiset(r.recordings)[x] == if x.id == id then 0 else multiset(st.recordings)[x]
    ensures reply.Ok? ==> r.recordings == IdLists.Without(st.recordings, RecordingId, id)
    ensures reply.Err? ==> r == st.(error := Some(DeleteFailedMessage))
  {
    match reply
    case Ok(_) =>
      var kept := IdLists.Without(st.recordings, RecordingId, id);
      IdLists.WithoutCountsAll(st.recordings, RecordingId, id);
      assert forall i :: 0 <= i < |st.recordings| && st.recordings[i].id != id ==> st.recordings[i] in kept;
      st.(recordings := kept)
    case Err(_) => st.(error := Some(DeleteFailedMessage))
  }

  /** `cameras[ip]?.name || 'Unknown Camera'`: an empty name is falsy too. */
  function CameraName(cameras: map<string, Camera>, ip: string): (name: string)
    ensures name != ""
    ensures name != UnknownCamera ==> ip in cameras && cameras[ip].name == name
    ensures ip in cameras && cameras[ip].name != "" ==> name == cameras[ip].name
  {
    if ip in cameras && cameras[ip].name != "" then cameras[ip].name else UnknownCamera
  }

  /** After a load, a stored recording whose camera lookup answered with a
      named camera under the same IP, and no later lookup answered with
      another camera for that IP, shows that camera's name. */
  lemma LoadedCameraName(st: State, all: seq<Recording>, lookup: (int, string) -> Reply<Camera>,
                         storage: Reply<StorageInfo>, i: nat)
    requires i < |LoadedRecordings(all)|
    requires forall k :: 0 <= k < |LoadedRecordings(all)| ==> lookup(k, LoadedRecordings(all)[k].cameraIp).Ok?
    requires lookup(i, LoadedRecordings(all)[i].cameraIp).value.ip == LoadedRecordings(all)[i].cameraIp
    requires lookup(i, LoadedRecordings(all)[i].cameraIp).value.name != ""
    requires forall k :: i < k < |LoadedRecordings(all)| ==>
               lookup(k, LoadedRecordings(all)[k].cameraIp).value.ip != LoadedRecordings(all)[i].cameraIp
               || lookup(k, LoadedRecordings(all)[k].cameraIp).value == lookup(i, LoadedRecordings(all)[i].cameraIp).value
    ensures CameraName(FetchData(st, Ok(all), lookup, storage).cameras, LoadedRecordings(all)[i].cameraIp)
            == lookup(i, LoadedRecordings(all)[i].cameraIp).value.name
  {
    var recs := LoadedRecordings(all);
    var ips := CameraIps(recs);
    var g := GatherCameras(ips, lookup);
    assert g.Ok?;
    var cams := g.value;
    var ip := recs[i].cameraIp;
    var cam := lookup(i, ip).value;
    // the last camera answered for this IP is `cam` itself
    var last := LastWithIp(cams, ip, i);
    assert cams[last] == cam;
    CameraMapLaterWins(cams, last);
  }

  /** The last index at or after `i` whose camera has the IP of index `i`. */
  function LastWithIp(cams: seq<Camera>, ip: string, i: nat): (k: nat)
    requires i < |cams| && cams[i].ip == ip
    ensures i <= k < |cams| && cams[k].ip == ip
    ensures forall j :: k < j < |cams| ==> cams[j].ip != ip
    decreases |cams| - i
  {
    if exists j :: i < j < |cams| && cams[j].ip == ip then
      var j :| i < j < |cams| && cams[j].ip == ip;
      LastWithIp(cams, ip, j)
    else i
  }

  /** Four fetched recordings, one still being written: the screen keeps
      the three completed ones, in filename order. */
  lemma LoadScenario()
    ensures LoadedRecordings([Recording(1, "b", "", true), Recording(2, "a", "", true),
                              Recording(3, "d", "", false), Recording(4, "c", "", true)])
            == [Recording(2, "a", "", true), Recording(1, "b", "", true), Recording(4, "c", "", true)]
  {
    var b := Recording(1, "b", "", true);
    var a := Recording(2, "a", "", true);
    var d := Recording(3, "d", "", false);
    var c := Recording(4, "c", "", true);
    CompletedScenario(a, b, c, d);
    SortScenario(a, b, c);
  }

  lemma CompletedScenario(a: Recording, b: Recording, c: Recording, d: Recording)
    requires a.isCompleted && b.isCompleted && c.isCompleted && !d.isCompleted
    ensures Completed([b, a, d, c]) == [b, a, c]
  {
    assert Completed([c]) == [c] by { assert [c][1..] == []; }
    assert Completed([d, c]) == [c] by { assert [d, c][1..] == [c]; }
    assert Completed([a, d, c]) == [a, c] by { assert [a, d, c][1..] == [d, c]; }
    assert [b, a, d, c][1..] == [a, d, c];
  }

  lemma SortScenario(a: Recording, b: Recording, c: Recording)
    requires a.filename == "a" && b.filename == "b" && c.filename == "c"
    ensures FilenameOrder.SortByFilename([b, a, c]) == [a, b, c]
  {
    assert FilenameOrder.SortByFilename([c]) == [c] by {
      assert [c][1..] == [];
    }
    assert FilenameOrder.SortByFilename([a, c]) == [a, c] by {
      assert [a, c][1..] == [c];
      assert FilenameOrder.LessEq(a.filename, c.filename);
    }
    assert [b, a, c][1..] == [a, c];
    assert !FilenameOrder.LessEq(b.filename, a.filename);
    assert FilenameOrder.LessEq(b.filename, c.filename);
    assert FilenameOrder.Insert(b, [c]) == [b, c];
    assert [a, c][1..] == [c];
  }
}

=== FILE: storage.dfy ===
/** The browser's `localStorage`, shared by every component. */
module Storage {
  import opened Outcomes

  /** A stored string.  `Instant(ms)` stands for the ISO-8601 text that
      `Date.toISOString` writes for the instant `ms`, which `new Date(...)`
      reads back as `ms`; `Text(s)` is any other string, which may or may not
      be a date `new Date(...)` understands. */
  datatype Stored = Text(s: string) | Instant(ms: int)

  type Store = map<string, Stored>

  /** `localStorage.getItem`: `null` for an absent key. */
  function Get(store: Store, key: string): (r: Option<Stored>)
    ensures r.Some? <==> key in store
    ensures r.Some? ==> r.value == store[key]
  {
    if key in store then Some(store[key]) else None
  }

  /** JavaScript truthiness of the result of `getItem`: `null` and the empty
      string are falsy; an ISO timestamp is never empty. */
  predicate Truthy(v: Option<Stored>)
    ensures Truthy(v) <==> v.Some? && v.value != Text("")
  {
    match v
    case None => false
    case Some(Text(s)) => s != ""
    case Some(Instant(_)) => true
  }

  /** `new Date(v).getTime()`.  A timestamp this program wrote reads back as
      its instant.  Any other text goes through `parseDate`, the browser's
      date parser, which answers an instant or `None` for `NaN`. */
  function ParseTime(v: Stored, parseDate: string -> Option<int>): (r: Option<int>)
    ensures v.Instant? ==> r == Some(v.ms)
    ensures v.Text? ==> r == parseDate(v.s)
  {
    match v
    case Instant(ms) => Some(ms)
    case Text(s) => parseDate(s)
  }
}

=== FILE: tab_layout.dfy ===
/** The signed-in shell (app/components/tab-layout.tsx): restoring the
    session from storage with its expiry decision, logout, and the mapping
    between the URL path and the selected tab. */
module TabLayout {
  import opened Outcomes
  import opened Types
  import Storage
  import Api

  const AlarmTab := "alarm"
  /** The largest delay `setTimeout` honours: its delay is a 32-bit signed
      integer. */
  const MaxTimerDelay := 0x7FFF_FFFF
  const RootPath := "/"

  /** The shell's state: its two React state variables, the session
      globals and storage of the API module, the router's path, and the
      delay of the logout the restore scheduled, if any. */
  datatype State = State(
    isLoggedIn: bool,
    currentUser: Option<User>,
    session: Api.Session,
    pathname: string,
    scheduledLogout: Option<int>)

  /** Before the restore effect runs: logged out, no user. */
  function Initial(session: Api.Session, pathname: string): (st: State)
    ensures !st.isLoggedIn && st.currentUser.None? && st.scheduledLogout.None?
  {
    State(false, None, session, pathname, None)
  }

  /** What the restore effect decides from the stored token and expiry.
      `parseDate` is the browser's reading of a stored text as a date. */
  datatype Restore =
    | NoSession             // no (or an empty) stored token: stay logged out
    | KeepSession           // no expiry, or `'infinite'`: never logged out
    | ScheduleLogout(delay: int)   // `setTimeout(handleLogout, delay)`
    | LogoutNow             // expired, or an expiry text that is not a date

  function RestoreDecision(storage: Storage.Store, now: int, parseDate: string -> Option<int>): (r: Restore)
    ensures r.NoSession? <==> !Storage.Truthy(Storage.Get(storage, Api.TokenKey))
    ensures r.KeepSession? <==>
              Storage.Truthy(Storage.Get(storage, Api.TokenKey))
              && (!Storage.Truthy(Storage.Get(storage, Api.ExpiryKey))
                  || storage[Api.ExpiryKey] == Storage.Text(Api.InfiniteExpiry))
    ensures r.ScheduleLogout? ==> r.delay > 0 && Api.ExpiryKey in storage
                                  && Storage.ParseTime(storage[Api.ExpiryKey], parseDate) == Some(now + r.delay)
    ensures Storage.Truthy(Storage.Get(storage, Api.TokenKey)) && Storage.Truthy(Storage.Get(storage, Api.ExpiryKey))
            && storage[Api.ExpiryKey] != Storage.Text(Api.InfiniteExpiry) ==>
              var t := Storage.ParseTime(storage[Api.ExpiryKey], parseDate);
              (r.LogoutNow? <==> t.None? || t.value - now <= 0)
  {
    var token := Storage.Get(storage, Api.TokenKey);
    var expiry := Storage.Get(storage, Api.ExpiryKey);
    if !Storage.Truthy(token) then NoSession
    else if !Storage.Truthy(expiry) || expiry.value == Storage.Text(Api.InfiniteExpiry) then KeepSession
    else
      match Storage.ParseTime(expiry.value, parseDate)
      case None => LogoutNow      // `NaN > 0` is false
      case Some(expiryTime) =>
        var timeUntilExpiry := expiryTime - now;
        if timeUntilExpiry > 0 then ScheduleLogout(timeUntilExpiry) else LogoutNow
  }

  /** Any stored expiry text the browser reads as a future instant, not only
      one this program wrote, arms a logout for the time left until it (as
      long as that time fits the timer's 32-bit signed delay). */
  lemma DateTextSchedules(storage: Storage.Store, now: int, parseDate: string -> Option<int>, text: string, t: int)
    requires Storage.Truthy(Storage.Get(storage, Api.TokenKey))
    requires text != "" && text != Api.InfiniteExpiry
    requires parseDate(text) == Some(t) && t > now
    requires t - now <= MaxTimerDelay
    ensures RestoreDecision(storage[Api.ExpiryKey := Storage.Text(text)], now, parseDate) == ScheduleLogout(t - now)
  {
    assert Storage.Get(storage[Api.ExpiryKey := Storage.Text(text)], Api.TokenKey) == Storage.Get(storage, Api.TokenKey);
  }

  /** `handleLogout`: clears the API session and storage keys, logs out,
      forgets the user and navigates to the root. */
  function HandleLogout(st: State): (r: State)
    ensures !r.isLoggedIn && r.currentUser.None? && r.pathname == RootPath
    ensures r.session == Api.Logout(st.session)
    ensures r.scheduledLogout == st.scheduledLogout
  {
    st.(session := Api.Logout(st.session), isLoggedIn := false, currentUser := None, pathname := RootPath)
  }

  /** The restore effect (its synchronous part: the user fetch it starts is
      a separate step, `UserLoaded`). */
  function RestoreEffect(st: State, now: int, parseDate: string -> Option<int>): (r: State)
    ensures !Storage.Truthy(Storage.Get(st.session.storage, Api.TokenKey)) ==> r == st
    ensures RestoreDecision(st.session.storage, now, parseDate).KeepSession? ==> r == st.(isLoggedIn := true)
    ensures RestoreDecision(st.session.storage, now, parseDate).ScheduleLogout? ==>
              r == st.(isLoggedIn := true, scheduledLogout := Some(RestoreDecision(st.session.storage, now, parseDate).delay))
    ensures RestoreDecision(st.session.storage, now, parseDate).LogoutNow? ==>
              !r.isLoggedIn && Api.TokenKey !in r.session.storage && Api.ExpiryKey !in r.session.storage
              && r.currentUser.None? && r.pathname == RootPath && r.session == Api.Logout(st.session)
              && r.scheduledLogout == st.scheduledLogout
    ensures RestoreDecision(st.session.storage, now, parseDate).LogoutNow? ==> r == HandleLogout(st)
  {
    match RestoreDecision(st.session.storage, now, parseDate)
    case NoSession => st
    case KeepSession => st.(isLoggedIn := true)
    case ScheduleLogout(delay) => st.(isLoggedIn := true, scheduledLogout := Some(delay))
    case LogoutNow => HandleLogout(st.(isLoggedIn := true))
  }

  /** The timer armed by the restore firing: a one-shot timer, so nothing is
      armed afterwards. */
  function LogoutTimerFires(st: State): (r: State)
    requires st.scheduledLogout.Some?
    ensures !r.isLoggedIn && r.currentUser.None? && r.pathname == RootPath
    ensures Api.TokenKey !in r.session.storage && Api.ExpiryKey !in r.session.storage
    ensures r.session == Api.Logout(st.session)
    ensures r.scheduledLogout.None?
  {
    HandleLogout(st).(scheduledLogout := None)
  }

  /** `getUserMyself().then(setCurrentUser)`: a resolved user is stored, a
      rejection is only logged. */
  function UserLoaded(st: State, reply: Reply<User>): (r: State)
    ensures reply.Ok? ==> r == st.(currentUser := Some(reply.value))
    ensures reply.Err? ==> r == st
  {
    if reply.Ok? then st.(currentUser := Some(reply.value)) else st
  }

  /** `handleLogin`. */
  function HandleLogin(st: State, user: User): (r: State)
    ensures r.isLoggedIn && r.currentUser == Some(user)
    ensures r == st.(isLoggedIn := r.isLoggedIn, currentUser := r.currentUser)
  {
    st.(isLoggedIn := true, currentUser := Some(user))
  }

  /** A login through the API, then a restore at a later instant `now`:
      remember-me keeps the session for good; otherwise the restore arms a
      logout for exactly the rest of the thirty minutes, or logs out at once
      when they have passed. */
  lemma LoginThenRestore(st: State, username: string, password: string, rememberMe: bool,
                         loginTime: int, suffix: string, now: int, parseDate: string -> Option<int>)
    ensures var loggedIn := Api.Login(st.session, username, password, rememberMe, loginTime, suffix).session;
            var d := RestoreDecision(loggedIn.storage, now, parseDate);
            && (rememberMe ==> d == KeepSession)
            && (!rememberMe && now < loginTime + Api.SessionLifetimeMs ==>
                  d == ScheduleLogout(loginTime + Api.SessionLifetimeMs - now))
            && (!rememberMe && now >= loginTime + Api.SessionLifetimeMs ==> d == LogoutNow)
  {
    var loggedIn := Api.Login(st.session, username, password, rememberMe, loginTime, suffix).session;
    assert Storage.Get(loggedIn.storage, Api.TokenKey).Some?;
    assert TokenTruthy: Storage.Truthy(Storage.Get(loggedIn.storage, Api.TokenKey)) by {
      assert loggedIn.storage[Api.TokenKey] == Storage.Text(Api.TokenPrefix + suffix);
      assert |Api.TokenPrefix + suffix| > 0;
    }
  }

  /** The restore, then the armed timer firing, ends logged out with the
      session keys gone, just as an immediate logout does. */
  lemma ExpiredEitherWayLoggedOut(st: State, now: int, parseDate: string -> Option<int>)
    requires RestoreDecision(st.session.storage, now, parseDate).ScheduleLogout? || RestoreDecision(st.session.storage, now, parseDate).LogoutNow?
    ensures var r := RestoreEffect(st, now, parseDate);
            var ended := if r.isLoggedIn then LogoutTimerFires(r) else r;
            !ended.isLoggedIn && Api.TokenKey !in ended.session.storage && Api.ExpiryKey !in ended.session.storage
  {
  }

  /** `currentTab`: the root path is the alarm tab, any other path names the
      tab after its first character. */
  function CurrentTab(pathname: string): (tab: string)
    ensures pathname == RootPath ==> tab == AlarmTab
    ensures pathname != RootPath && |pathname| > 0 ==> pathname == pathname[..1] + tab
    ensures pathname == "" ==> tab == ""
  {
    if pathname == RootPath then AlarmTab
    else if |pathname| == 0 then ""     // `"".slice(1)` is `""`
    else pathname[1..]
  }

  /** The path `handleTabChange` navigates to. */
  function TabPath(tab: string): (path: string)
    ensures |path| > 0 && path[0] == '/'
    ensures tab == AlarmTab ==> path == RootPath
    ensures tab != AlarmTab ==> path[1..] == tab
  {
    if tab == AlarmTab then RootPath else "/" + tab
  }

  /** `handleTabChange`: the router moves to the tab's path. */
  function HandleTabChange(st: State, tab: string): (r: State)
    ensures r == st.(pathname := TabPath(tab))
    ensures tab != "" ==> CurrentTab(r.pathname) == tab
  {
    TabPathRoundTrip(tab);
    st.(pathname := TabPath(tab))
  }

  /** Tab to path to tab gives the tab back, for every non-empty tab; the
      empty tab maps to the root and so comes back as the alarm tab. */
  lemma TabPathRoundTrip(tab: string)
    ensures tab != "" ==> CurrentTab(TabPath(tab)) == tab
    ensures CurrentTab(TabPath("")) == AlarmTab
  {
    if tab != AlarmTab && tab != "" {
      assert TabPath(tab) != RootPath by {
        assert |TabPath(tab)| > 1;
      }
    }
  }

  /** Path to tab to path gives the path back for every path starting with
      a slash except `/alarm`, which is shown as the alarm tab and so leads
      back to the root. */
  lemma PathTabRoundTrip(path: string)
    requires |path| > 0 && path[0] == '/'
    ensures path != "/alarm" ==> TabPath(CurrentTab(path)) == path
    ensures TabPath(CurrentTab("/alarm")) == RootPath
  {
    if path != RootPath && path != "/alarm" {
      assert CurrentTab(path) == path[1..];
      assert path == "/" + path[1..];
    }
    assert CurrentTab("/alarm") == "/alarm"[1..];
  }
}

=== FILE: types.dfy ===
/** The entities the dashboard manipulates.  `Device`, `AlarmGroup` and
    `User` follow types/index.ts; the others are used by the components but
    their declarations are not part of this model, so their shapes are
    reconstructed from the fields the components read and write. */
module Types {
  import opened Outcomes

  /** The closed set of capabilities a user may hold. */
  datatype Permission =
    | UserManager
    | StartAlarm
    | StopAlarm
    | AccessRecordings
    | AccessStreamCameras
    | ChangeAlarmSound
    | ChangeMailConfig
    | ModifyDevices

  datatype Device = Device(id: int, name: string)

  datatype AlarmGroup = AlarmGroup(id: int, name: string, devices: seq<Device>, isActive: bool)

  datatype User = User(id: int, username: string, email: string, permissions: seq<string>)

  datatype RtspCamera = RtspCamera(id: int, name: string, ip: string, port: int, username: string, password: string)

  datatype MagneticReed = MagneticReed(id: int, name: string, gpio: int, normallyOpen: bool)

  datatype Recording = Recording(id: int, filename: string, cameraIp: string, isCompleted: bool)

  /** The camera record the recordings screen looks up by IP. */
  datatype Camera = Camera(ip: string, name: string)

  datatype StorageInfo = StorageInfo(usedSpace: int, freeSpace: int, totalSpace: int)

  datatype EmailConfig = EmailConfig(smtpServer: string, port: int, username: string, password: string, sender: string)

  datatype AudioFile = AudioFile(name: string)

  datatype AudioConfig = AudioConfig(audio: Option<AudioFile>)

  /* Identity keys, passed to the generic list operations of IdLists. */

  function DeviceId(d: Device): int { d.id }
  function GroupId(g: AlarmGroup): int { g.id }
  function UserId(u: User): int { u.id }
  function CameraId(c: RtspCamera): int { c.id }
  function ReedId(r: MagneticReed): int { r.id }
  function RecordingId(r: Recording): int { r.id }
}

=== FILE: user_management.dfy ===
/** The user management screen (app/components/user-management.tsx): a
    purely local list of users, edited through one dialog. */
module UserManagement {
  import opened Outcomes
  import IdLists

  /** The screen's own user record, which also carries a password. */
  datatype ManagedUser = ManagedUser(id: int, username: string, email: string, password: string,
                                     permissions: seq<string>)

  function ManagedUserId(u: ManagedUser): int { u.id }

  datatype State = State(users: seq<ManagedUser>, editing: Option<ManagedUser>, dialogOpen: bool)

  const InitialUsers := [
    ManagedUser(1, "admin", "admin@example.com", "admin123", ["read", "write", "delete"]),
    ManagedUser(2, "user1", "user1@example.com", "user123", ["read"]),
    ManagedUser(3, "user2", "user2@example.com", "user234", ["read", "write"])]

  const Initial := State(InitialUsers, None, false)

  /** The seeded users have the pairwise distinct ids 1, 2 and 3. */
  lemma InitialIdsDistinct()
    ensures forall i, j :: 0 <= i < j < |InitialUsers| ==> InitialUsers[i].id != InitialUsers[j].id
    ensures forall i :: 0 <= i < |InitialUsers| ==> InitialUsers[i].id == i + 1
  {
  }

  /** `handleAddUser`: a blank draft whose id is the current time. */
  function HandleAddUser(st: State, now: int): (r: State)
    ensures r.dialogOpen && r.editing == Some(ManagedUser(now, "", "", "", []))
    ensures r.users == st.users
  {
    st.(editing := Some(ManagedUser(now, "", "", "", [])), dialogOpen := true)
  }

  /** `handleUpdateUser`: the chosen user becomes the draft. */
  function HandleUpdateUser(st: State, user: ManagedUser): (r: State)
    ensures r.dialogOpen && r.editing == Some(user) && r.users == st.users
  {
    st.(editing := Some(user), dialogOpen := true)
  }

  /** `handleDeleteUser`: every user with the id goes, every other stays. */
  function HandleDeleteUser(st: State, id: int): (r: State)
    ensures r == st.(users := r.users)
    ensures forall u :: u in r.users <==> u in st.users && u.id != id
    ensures |r.users| < |st.users| <==> IdLists.HasId(st.users, ManagedUserId, id)
    ensures forall u :: multiset(r.users)[u] == if u.id == id then 0 else multiset(st.users)[u]
    ensures r.users == IdLists.Without(st.users, ManagedUserId, id)
  {
    var kept := IdLists.Without(st.users, ManagedUserId, id);
    IdLists.WithoutCountsAll(st.users, ManagedUserId, id);
    assert forall u :: u in st.users && u.id != id ==> u in kept by {
      forall u | u in st.users && u.id != id ensures u in kept {
        var i :| 0 <= i < |st.users| && st.users[i] == u;
      }
    }
    st.(users := kept)
  }

  /** `handleSaveUser` as written: the saved user replaces by id when its
      id equals the draft's, and is appended otherwise; the dialog closes
      either way. */
  function HandleSaveUser(st: State, updated: ManagedUser): (r: State)
    ensures !r.dialogOpen && r.editing == st.editing
    ensures st.editing.Some? && updated.id == st.editing.value.id ==>
              && |r.users| == |st.users|
              && (forall i :: 0 <= i < |st.users| && st.users[i].id == updated.id ==> r.users[i] == updated)
              && (forall i :: 0 <= i < |st.users| && st.users[i].id != updated.id ==> r.users[i] == st.users[i])
    ensures !(st.editing.Some? && updated.id == st.editing.value.id) ==> r.users == st.users + [updated]
  {
    var users := if st.editing.Some? && updated.id == st.editing.value.id
                 then IdLists.Replace(st.users, ManagedUserId, updated.id, updated)
                 else st.users + [updated];
    st.(users := users, dialogOpen := false)
  }

  /** The form's submit: it always passes the draft itself. */
  function SubmitForm(st: State): (r: State)
    requires st.editing.Some?
    ensures |r.users| == |st.users| && !r.dialogOpen
    ensures forall i :: 0 <= i < |st.users| && st.users[i].id != st.editing.value.id ==> r.users[i] == st.users[i]
    ensures forall i :: 0 <= i < |st.users| && st.users[i].id == st.editing.value.id ==> r.users[i] == st.editing.value
    ensures r.users == IdLists.Replace(st.users, ManagedUserId, st.editing.value.id, st.editing.value)
  {
    HandleSaveUser(st, st.editing.value)
  }

  /** Because the submitted user is always the draft, a user added through
      the dialog, whose time-based id no listed user has, never reaches the
      list: adding then saving leaves the list as it was. */
  lemma AddedUserIsDropped(st: State, now: int)
    requires !IdLists.HasId(st.users, ManagedUserId, now)
    ensures SubmitForm(HandleAddUser(st, now)).users == st.users
  {
    var r := SubmitForm(HandleAddUser(st, now));
    assert forall i :: 0 <= i < |st.users| ==> r.users[i] == st.users[i];
  }

  /** The concrete case: the seeded list, a new user at time 1700000000000. */
  lemma AddedUserIsDroppedExample()
    ensures SubmitForm(HandleAddUser(Initial, 1700000000000)).users == InitialUsers
  {
    AddedUserIsDropped(Initial, 1700000000000);
  }

  /** The evidently intended save: replace the user with that id when the
      list holds one, append the user otherwise. */
  function HandleSaveUserIntended(st: State, updated: ManagedUser): (r: State)
    ensures !r.dialogOpen && r.editing == st.editing
    ensures IdLists.HasId(st.users, ManagedUserId, updated.id) ==>
              && |r.users| == |st.users|
              && (forall i :: 0 <= i < |st.users| && st.users[i].id == updated.id ==> r.users[i] == updated)
              && (forall i :: 0 <= i < |st.users| && st.users[i].id != updated.id ==> r.users[i] == st.users[i])
    ensures !IdLists.HasId(st.users, ManagedUserId, updated.id) ==> r.users == st.users + [updated]
  {
    var users := if IdLists.HasId(st.users, ManagedUserId, updated.id)
                 then IdLists.Replace(st.users, ManagedUserId, updated.id, updated)
                 else st.users + [updated];
    st.(users := users, dialogOpen := false)
  }

  /** The form's submit with the intended save. */
  function SubmitFormIntended(st: State): (r: State)
    requires st.editing.Some?
    ensures st.editing.value in r.users
  {
    var u := st.editing.value;
    if IdLists.HasId(st.users, ManagedUserId, u.id) then
      var r := HandleSaveUserIntended(st, u);
      var i :| 0 <= i < |st.users| && st.users[i].id == u.id;
      assert r.users[i] == u;
      r
    else HandleSaveUserIntended(st, u)
  }

  /** With the intended save, adding a user grows the list by exactly that
      user, and editing a listed user keeps the length and puts the edit at
      that id. */
  lemma IntendedAddAndEdit(st: State, now: int, edited: ManagedUser)
    requires !IdLists.HasId(st.users, ManagedUserId, now)
    requires IdLists.HasId(st.users, ManagedUserId, edited.id)
    ensures SubmitFormIntended(HandleAddUser(st, now)).users == st.users + [ManagedUser(now, "", "", "", [])]
    ensures |SubmitFormIntended(HandleUpdateUser(st, edited)).users| == |st.users|
    ensures IdLists.Find(SubmitFormIntended(HandleUpdateUser(st, edited)).users, ManagedUserId, edited.id) == Some(edited)
  {
    IdLists.FindAfterReplace(st.users, ManagedUserId, edited);
  }

  /** A permission is its own key: `filter(p => p !== permission)` is the
      id filter with this key. */
  function PermissionKey(p: string): string { p }

  /** The permission checkbox: checking appends the permission, unchecking
      removes every occurrence of it; nothing else in the draft changes. */
  function TogglePermission(user: ManagedUser, permission: string, checked: bool): (r: ManagedUser)
    ensures r == user.(permissions := r.permissions)
    ensures checked ==> r.permissions == user.permissions + [permission]
    ensures !checked ==> forall p :: p in r.permissions <==> p in user.permissions && p != permission
    ensures !checked ==> forall p :: multiset(r.permissions)[p] == if p == permission then 0 else multiset(user.permissions)[p]
    ensures !checked ==> r.permissions == IdLists.Without(user.permissions, PermissionKey, permission)
  {
    if checked then user.(permissions := user.permissions + [permission])
    else
      IdLists.WithoutCountsAll(user.permissions, PermissionKey, permission);
      user.(permissions := IdLists.Without(user.permissions, PermissionKey, permission))
  }

  /** Checking a permission the user lacks and unchecking it restores the
      user. */
  lemma CheckThenUncheckPermission(user: ManagedUser, permission: string)
    requires permission !in user.permissions
    ensures TogglePermission(TogglePermission(user, permission, true), permission, false) == user
  {
    assert !IdLists.HasId(user.permissions, PermissionKey, PermissionKey(permission));
    IdLists.WithoutAppended(user.permissions, PermissionKey, permission);
  }
}
